=== FILE: README.md ===
# Quizly backend — verified model of the quiz generation pipeline and quiz API

Quizly is a Django REST backend. An authenticated user submits a YouTube link,
the server asks a Gemini language model for a multiple-choice quiz about the
video, cleans the model's reply, decodes it as JSON, and stores one `Quiz` row
with its `Question` rows. Users can then list their quizzes and read, update or
delete one of them. Every query is filtered by the requesting user.

This Dafny project models that core as pure functions over immutable values:

- `Strings`: Python's `str.strip()` (with the full `str.isspace` character set),
  prefix and suffix tests, and the `in` substring test with its positional
  meaning.
- `JsonValues`: the values `json.loads` returns, dictionary subscription
  (`KeyError` / `TypeError`) and what a Python `for` loop iterates over.
- `QuizGenerator`: the prompt text, the three anchored `re.sub` fence removals
  (with Python's `$`, which also matches before a final newline), and the
  mapping of a parse failure to `"AI did not return valid JSON."`. The model
  call and `json.loads` are function parameters.
- `Models`: the `Quiz` and `Question` rows, a store holding both tables in row
  order plus the next primary keys, the consistency invariant (unique keys,
  every question's quiz exists), `create`, `bulk_create`, `save`, and the
  cascading deletes of a quiz and of a user.
- `CharFields`: what a Django REST Framework `CharField` does to a text the
  client sent: surrounding whitespace trimmed, blank refused unless allowed,
  and the null character refused. The quiz request and registration
  serializers share it.
- `Serializers`: the `url` field check of quiz creation and the fixed field
  sets of the question and quiz serializers, as maps from field name to value.
- `Views`: `QuizCreateView.create`, `QuizListView`, and `QuizDetailView`'s
  retrieve, update and delete through the owner filter. Each view takes the
  requesting user (`None` when not authenticated). `CreateQuiz` returns the
  result, the store afterwards and the prompts sent to the model.
  `UpdateQuiz` and `DestroyQuiz` return the result and the store afterwards.
  `ListQuizzes` and `RetrieveQuiz` only read, so they return only the result.
- `Accounts`: `RegisterSerializer`, meaning its accepted fields, the checks
  its `CharField`s apply (required, whitespace trimmed, blank rejected, no null
  character, every failing field reported), the password confirmation check,
  what reaches `create_user` and how it stores it, and its write-only fields.
  `create_user`'s username and email normalisation and its password hasher
  are the parameters of a `UserManager` value.
- `Results`, `Sequences`: `Option`/`Result`, and an order-preserving filter
  with its lemmas.

Three behaviours of the code are worth knowing, and the model proves each:

- The fence sanitizer is not idempotent: `"``` ```"` becomes `" "`, and a
  second pass gives `""`.
- Errors from reading `title`, `description` and `questions` out of the
  decoded reply are not wrapped as "Quiz generation failed". The reads happen
  outside the `try`, so such a failure is a distinct, unhandled error.
- Creation is not atomic without a transaction. The code writes the `Quiz` row
  before it reads `questions` and inserts the questions, and no transaction is
  visible. So a reply with a bad `questions` value leaves a quiz without
  questions behind. So does a reply with an entry whose `question_options` is
  `null`: the column is `NOT NULL`, and `bulk_create` inserts all rows or none.

## Model

| member | source | states |
|---|---|---|
| `QuizGenerator.Prompt` | quizzes/services/quiz_generator.py:12-37 | The prompt is the fixed instruction text with the video URL embedded verbatim. It contains the URL and begins and ends with the fixed text. |
| `QuizGenerator.PromptRoundTrip` | quizzes/services/quiz_generator.py:12-14 | The URL can be read back out of the prompt unchanged. |
| `QuizGenerator.PromptInjective` | quizzes/services/quiz_generator.py:12-14 | Distinct URLs give distinct prompts. |
| `Strings.Strip` | quizzes/services/quiz_generator.py:41 | Python's `str.strip()`: leading whitespace off, then trailing whitespace off. Its meaning is stated by `StripSpec`. |
| `Strings.StripSpec` | quizzes/services/quiz_generator.py:41 | `strip()` removes a whitespace-only prefix and suffix and nothing else. The result neither starts nor ends with whitespace. |
| `Strings.StripEmptyIffAllSpace` | users/api/serializers.py:14 | A text strips to the empty string exactly when every character is whitespace, which is what a `CharField`'s blank check tests. |
| `QuizGenerator.Sanitize` | quizzes/services/quiz_generator.py:41-45 | The reply is stripped, then loses a leading "```json", then a leading "```", then a trailing "```" in Python's `$` sense. The lemmas below state what that does. |
| `QuizGenerator.SubAtStart` | quizzes/services/quiz_generator.py:43-44 | `re.sub` with a `^`-anchored literal: an input that starts with the pattern loses exactly that one leading copy (pattern + result == input), and any other input is returned unchanged. |
| `QuizGenerator.SanitizeIgnoresPadding` | quizzes/services/quiz_generator.py:41 | Whitespace around the reply is removed before any fence is looked at, so padding never changes the result. |
| `QuizGenerator.LastStep` | quizzes/services/quiz_generator.py:43-45 | After stripping, the front removals cut 0, 3, 7 or 10 characters. Python's `$` can then match only at the very end, so the last step removes exactly a trailing "```". |
| `QuizGenerator.SanitizeIsSlice` | quizzes/services/quiz_generator.py:41-45 | The result is one contiguous piece of the stripped reply. At most 10 characters go from the front and at most 3 from the back. Interior fence markers survive. |
| `QuizGenerator.RemoveFencesIsSlice` | quizzes/services/quiz_generator.py:43-45 | The same slice bounds for the three anchored removals applied to already-trimmed text. |
| `QuizGenerator.SanitizeUnfenced` | quizzes/services/quiz_generator.py:41-45 | A stripped reply that neither starts nor ends with "```" passes through unchanged. |
| `QuizGenerator.UnfencedUnchanged` | quizzes/services/quiz_generator.py:43-45 | The fence removals leave trimmed text without a leading or trailing "```" unchanged. |
| `QuizGenerator.SanitizeJsonFenced` | quizzes/services/quiz_generator.py:43-45 | A reply that strips to "```json" + body + "```" gives exactly body, when body does not start with "```". |
| `QuizGenerator.JsonFencedBody` | quizzes/services/quiz_generator.py:43-45 | On trimmed text, "```json" + body + "```" loses exactly its two fences. |
| `QuizGenerator.SanitizeBareFenced` | quizzes/services/quiz_generator.py:43-45 | A reply that strips to "```" + body + "```" gives exactly body whenever body does not start with "json". A body that starts with "```" is returned verbatim too. |
| `QuizGenerator.BareFencedBody` | quizzes/services/quiz_generator.py:43-45 | "```" + body + "```" loses exactly its two fences whenever body does not start with "json": the bare `^` removal takes the opening fence without looking at body. |
| `QuizGenerator.ClosedBody` | quizzes/services/quiz_generator.py:44-45 | After an opening fence is gone, removing a leading "```" and then a trailing one returns body exactly, even for a body of one or two backticks. |
| `QuizGenerator.SanitizeNotIdempotent` | quizzes/services/quiz_generator.py:41-45 | Counterexample to idempotence: "``` ```" sanitizes to " ", and " " sanitizes to "". |
| `QuizGenerator.SanitizeJsonFencedPadded` | quizzes/services/quiz_generator.py:41-45 | Whitespace, then "```json" + body + "```", then whitespace, sanitizes to body. |
| `QuizGenerator.DecodeReply` | quizzes/services/quiz_generator.py:47-52 | Parsing fails exactly when `json.loads` rejects the sanitized text, and the error is always "AI did not return valid JSON.". A successful parse is returned unchanged. |
| `QuizGenerator.SubAtEndMeaning` | quizzes/services/quiz_generator.py:45 | Python's `$` on a literal pattern other than a single newline (the source uses it with the fence): a final `p` is removed; failing that, a `p` just before a final newline is removed and the newline stays; otherwise nothing changes. |
| `QuizGenerator.GenerateQuiz` | quizzes/services/quiz_generator.py:39-52 | Succeeds iff the model call with the URL's prompt succeeds and its sanitized reply parses, and then returns that parse. After a successful call, every failure is "AI did not return valid JSON.". A failed call keeps its own message. |
| `QuizGenerator.FencedReplyDecodes` | quizzes/services/quiz_generator.py:39-52 | End to end: a padded "```json" reply decodes exactly as its body does. |
| `Strings.ContainsIffOccurs` | quizzes/api/serializers.py:121 | Python's `in` on strings holds iff the pattern occurs at some index, in both directions. |
| `Serializers.ValidateUrl` | quizzes/api/serializers.py:120-123 | A URL passes iff "youtube.com" or "youtu.be" occurs in it. An accepted URL is returned unchanged. A rejected one gives "Invalid YouTube URL.". |
| `CharFields.CheckText` | quizzes/api/serializers.py:118 | A present `CharField` value passes iff it is not blank (or blank is allowed) and holds no null character. It then becomes its strip. A blank value is "This field may not be blank.", and one with a null character is "Null characters are not allowed.". |
| `CharFields.StripKeepsNullChar` | users/api/serializers.py:14 | A text holds the null character iff its strip does, so the validator sees the same answer before and after trimming. |
| `Serializers.ValidateCreateRequest` | quizzes/api/serializers.py:117-123 | A missing `url` is "This field is required.", and a blank one or one with a null character gets that `CharField` error. The request passes iff the url is present, not blank, free of null characters, passes the format check and contains a YouTube host, and the accepted URL is the trimmed input. |
| `Serializers.ProjectQuestion` | quizzes/api/serializers.py:5-66 | Every question view has exactly id, question_title, question_options and answer. Only the plain and detail serializers add created_at and updated_at. None exposes the quiz link. |
| `Serializers.QuestionViewRoundTrip` | quizzes/api/serializers.py:18-26 | A question's id, title, options and answer can be read back verbatim from any of its views. |
| `Serializers.PublicIsDetailWithoutTimestamps` | quizzes/api/serializers.py:5-66 | The public and list question views equal the detail view minus the two timestamps. The plain view equals the detail view. |
| `Serializers.ProjectQuestions` | quizzes/api/serializers.py:30 | A nested `many=True` field has one entry per question, in order, each carrying that question's content. |
| `Serializers.ProjectQuiz` | quizzes/api/serializers.py:29-114 | Every quiz view has exactly id, title, description, created_at, updated_at, video_url and questions, and never user, score or is_completed. It nests one entry per question of the quiz, in row order, carrying that question's content. The nested entries of the plain and detail views have the two timestamps, and those of the public detail and list views have exactly id, question_title, question_options and answer, so what create returns and what GET returns differ there. |
| `Serializers.QuizViewHidesPrivateColumns` | quizzes/api/serializers.py:29-114 | Quizzes that differ only in owner, score or completion render identically. |
| `Serializers.QuizViewsAgree` | quizzes/api/serializers.py:29-114 | The list view equals the public detail view, and the detail view equals the plain quiz view. |
| `Models.InsertQuiz` | quizzes/models.py:7-15 | A new quiz gets a fresh key, the given owner and columns, no score and is_completed false. It is appended and keeps the store consistent. |
| `Models.QuestionsOf` | quizzes/models.py:22 | A quiz's related questions are exactly the rows whose foreign key names it. |
| `Models.OwnedBy` | quizzes/api/views.py:57-58 | The owner filter selects exactly the quizzes of that user. |
| `Models.FindQuiz` | quizzes/api/views.py:74 | Lookup by key returns a row with that key, or reports that none exists. |
| `Models.NullColumn` | quizzes/models.py:24 | A batch of drafts violates the `NOT NULL` `question_options` column iff some draft's options are JSON `null`. |
| `Models.BulkCreate` | quizzes/api/views.py:35-45 | For a batch the database accepts: one row per draft, in draft order, with consecutive fresh keys, all pointing at the quiz. Existing rows are kept. |
| `Models.BulkCreateAppends` | quizzes/api/views.py:35-45 | The rows bulk creation adds are exactly the drafts saved in order. |
| `Models.BulkCreateValid` | quizzes/models.py:21-22 | Bulk creation for an existing quiz keeps every question attached to exactly one existing quiz, and keeps keys unique. |
| `Models.NewQuizQuestions` | quizzes/api/views.py:35-45 | For a quiz that had no questions, its questions afterwards are exactly the drafts, in order. |
| `Models.DeleteQuiz` | quizzes/models.py:22 | Deleting a quiz removes exactly that quiz and exactly its questions. |
| `Models.DeleteQuizEffect` | quizzes/models.py:22 | Deleting a quiz keeps the store consistent and removes as many question rows as the quiz had. Other quizzes' questions are unchanged. |
| `Models.DeleteUserData` | quizzes/models.py:8 | Deleting a user removes exactly the user's quizzes and the questions of those quizzes. |
| `Models.DeleteUserEffect` | quizzes/models.py:8-22 | After deleting a user, the store is consistent and the user owns nothing. Other users' quizzes and their questions are unchanged. |
| `Models.SameKeySameQuiz` | quizzes/models.py:7 | In a consistent store, a primary key identifies one row. |
| `Models.SaveQuiz` | quizzes/api/views.py:82 | Saving overwrites the row with the same key in place. Other rows and all questions are unchanged. |
| `Models.SaveQuizValid` | quizzes/api/views.py:82 | Saving an existing quiz keeps the store consistent, and the saved row is in it. |
| `JsonValues.Get` | quizzes/api/views.py:30-31 | `data[key]` succeeds iff data is a dict holding key. Otherwise it is a `KeyError` or a `TypeError`. |
| `JsonValues.GetText` | quizzes/api/views.py:30-31 | A text column read succeeds iff the key holds a string, and it returns that string. |
| `JsonValues.Elements` | quizzes/api/views.py:42 | Iteration succeeds iff the value is a list, an empty dict or an empty string. A list yields its items, and the other two yield nothing. A non-empty dict or string fails on its first element, and `null`, booleans and numbers are not iterable. |
| `Views.QuestionDrafts` | quizzes/api/views.py:35-42 | Reading `quiz_data["questions"]` succeeds iff the key is there, its value can be iterated and every entry can be read. Each draft then carries its entry's question_title, question_options and answer verbatim. A missing key or a non-iterable value is that step's error. |
| `Views.QuizHeader` | quizzes/api/views.py:30-31 | Title and description are read from the decoded data, in that order. |
| `Views.DraftOf` | quizzes/api/views.py:36-41 | One entry's title, options and answer are copied verbatim, or the read fails. |
| `Views.DraftsOf` | quizzes/api/views.py:35-43 | Succeeds iff every entry can be read. It then gives one draft per entry in order. Otherwise the error is the first failing entry's. |
| `Views.Materialize` | quizzes/api/views.py:28-50 | A header failure writes nothing. Otherwise one quiz is added, owned by the requester, with the request URL. A `questions` failure keeps that quiz and adds no question. So does a `null` `question_options`, which fails as an integrity error. It succeeds iff the header and every entry can be read and no entry's options are `null`, and then returns the detail view of the new quiz. |
| `Views.MaterializeSuccess` | quizzes/api/views.py:28-45 | On success, one new quiz with the requester as owner, the request URL, and title and description from the data. It has one question per entry of the data's `questions` list, in order, whose title, options and answer are that entry's values, with options never `null`. The store stays consistent. |
| `Views.CreateQuiz` | quizzes/api/views.py:14-50 | Unauthenticated requests fail with nothing done. A model call happens only for an authenticated, valid, configured request, with the prompt for the validated URL. Server errors write nothing. |
| `Views.MissingKeyStopsEarly` | quizzes/api/views.py:20-21 | A missing or empty key fails with "GEMINI_API_KEY is not configured.". No prompt is sent and nothing is written. |
| `Views.InvalidUrlStopsEarly` | quizzes/api/views.py:15-18 | A rejected URL is a `url` field error, raised before the key check and any model call. |
| `Views.GenerationFailureWrapped` | quizzes/api/views.py:23-26 | A failed call or unparseable reply becomes "Quiz generation failed: " + cause. Exactly one prompt was sent and nothing is written. |
| `Views.CreateQuizMaterializes` | quizzes/api/views.py:23-50 | Once the request is valid, the key configured and generation successful, the view's outcome and store are those of materializing the decoded data, after exactly one prompt. |
| `Views.CreateQuizSuccess` | quizzes/api/views.py:23-50 | A successful create made exactly one model call, and its result is the materialization of the decoded reply for the requester. |
| `Views.MalformedDataUnwrapped` | quizzes/api/views.py:28-45 | Data-shape failures are not wrapped as generation failures. A bad header writes nothing. A bad `questions` leaves the new quiz without questions, and so does an entry whose `question_options` is `null`, which fails as an integrity error. |
| `Views.ListQuizzes` | quizzes/api/views.py:53-58 | Unauthenticated requests fail. Otherwise the result is the list view of each of the requester's quizzes, in row order. |
| `Views.ListShowsExactlyOwn` | quizzes/api/views.py:57-58 | A quiz's id appears in the list iff the requester owns it. |
| `Views.GetObject` | quizzes/api/views.py:64-65 | A lookup finds only the requester's quiz with that key. It is "not found" iff no such quiz exists. |
| `Views.SerializerFor` | quizzes/api/views.py:67-70 | PATCH and PUT use the update serializer. Every other method uses the public detail serializer. |
| `Views.RetrieveQuiz` | quizzes/api/views.py:61-70 | GET returns the public detail view of the requester's quiz with that key. Otherwise it returns the lookup's error. |
| `Views.Saved` | quizzes/models.py:14-15 | Saving keeps the key and the creation time, sets updated_at to the current time, and takes the owner from the edit, so the owner stays unless the edit changes it. |
| `Views.SavedIgnoresOldColumns` | quizzes/api/views.py:76-82 | The saved row depends on the old row only through its key and creation time. Every other column comes from the edit or the clock. |
| `Views.UpdateQuiz` | quizzes/api/views.py:72-88 | A failure writes nothing. Success stores the serializer's edit on the looked-up quiz and returns the public detail view of the saved row. |
| `Views.UpdateRendersSavedRow` | quizzes/api/views.py:84-88 | The response renders the stored row, not the request: bodies with the same edit get the same response. The stored row's owner is the edit's, so it is still the requester when the edit keeps the owner. The other quizzes and all questions are unchanged. |
| `Views.DestroyQuiz` | quizzes/api/views.py:61-65 | Delete succeeds only after a successful owner-filtered lookup, and then cascades. Otherwise nothing changes. |
| `Views.OthersQuizIsAbsent` | quizzes/api/views.py:64-65 | Another user's quiz gives "not found" on retrieve, update and delete, exactly as a missing one does, and nothing changes. |
| `Accounts.AcceptedFields` | users/api/serializers.py:25-26 | Only username, email, password and confirmed_password are kept from the request, with their values. |
| `Accounts.FieldError` | users/api/serializers.py:14-27 | A required field reports "This field is required." iff it is absent, and "This field may not be blank." iff it is present but all whitespace. Any present field reports "Null characters are not allowed." iff it holds one. `email` may be absent or blank. Otherwise the field reports nothing. |
| `Accounts.FieldErrorsOf` | users/api/serializers.py:14-27 | Every declared field that fails its own check is reported, each with its own message, and no other field is. There are no field errors iff all declared fields pass. |
| `Accounts.FieldErrorsOfAccepted` | users/api/serializers.py:25-26 | Dropping the undeclared request fields first does not change the field errors. |
| `Accounts.ValidatePasswords` | users/api/serializers.py:42-44 | Fails with "Passwords do not match." iff the two passwords differ. Otherwise the data is returned unchanged. |
| `Accounts.CreateUserArguments` | users/api/serializers.py:59 | Drops confirmed_password and keeps every other field unchanged. |
| `Accounts.Cleaned` | users/api/serializers.py:14 | The values handed to `validate` have the same keys as the input, each stripped of surrounding whitespace. |
| `Accounts.CreateUser` | users/api/serializers.py:60 | The user gets the normalised username, the normalised email ("" when none is given) and only the hash of the password. |
| `Accounts.ValidateAndCreate` | users/api/serializers.py:29-61 | On the cleaned fields, creation succeeds iff the passwords are equal and otherwise fails with "Passwords do not match.". The user gets the normalised username, the normalised email or "", and the hash of the password. |
| `Accounts.Register` | users/api/serializers.py:5-61 | Registration succeeds iff username, password and confirmed_password are all present and not blank, no declared field holds a null character, and the stripped passwords are equal. The user gets the normalised stripped username, the normalised stripped email or "", and the hash of the stripped password. Any field error is reported with all failing fields, before `validate` runs. With no field error, the only failure is "Passwords do not match.". |
| `Accounts.RegisterFilled` | users/api/serializers.py:29-61 | A request with filled required fields, no null character and equal stripped passwords registers exactly the stripped values, normalised as `create_user` does. |
| `Accounts.EmptyRequestReportsAll` | users/api/serializers.py:14-27 | An empty request gets "This field is required." for username, password and confirmed_password together. |
| `Accounts.BlankPasswordsRejected` | users/api/serializers.py:14-44 | Two empty passwords are rejected as blank fields before they are compared, even though they are equal. |
| `Accounts.NullCharPasswordsRejected` | users/api/serializers.py:14-44 | Two equal passwords holding a null character are rejected as field errors before they are compared. |
| `Accounts.PaddedPasswordConfirmed` | users/api/serializers.py:42-60 | For any filled username and password, the password sent with one leading space is confirmed by the password without it, and the hash of the unpadded password is stored. |
| `Accounts.PaddedPasswordsMatch` | users/api/serializers.py:42-60 | The password " pw" is confirmed by "pw", because both are stripped first, and the stored hash is that of "pw". |
| `Accounts.CreationSeesOnlyDeclaredFields` | users/api/serializers.py:59-60 | Only username, email and password reach user creation, each stripped of surrounding whitespace. Unknown fields and the confirmation never do. |
| `Accounts.Represent` | users/api/serializers.py:14-27 | Output has exactly the declared fields that are not write-only, so neither password field appears. |
| `Accounts.OutputHidesPassword` | users/api/serializers.py:14-27 | Users that differ only in password render identically. |

## Left out

- `users/api/views.py`: login, refresh and logout. They wrap Django's `authenticate`, the simplejwt token library and cookie setting, whose behaviour is not visible here.
- The authentication class: views take the requesting user as `Option<UserId>`. How a cookie becomes a user is not modelled.
- The Gemini client (`genai.configure`, the model name, `generate_content`): it is a network call. It is the parameter `complete`, whose failure carries `str(e)`.
- `quizzes/services/gemini_service.py`, `youtube_service.py`, `quiz_service.py`: an alternate pipeline that nothing in the modelled views calls. It is built from network calls and a file download, and its `whisper_service` module is not part of this model.
- `json.loads` is the parameter `parse`. JSON numbers are integers only; floating point is left out.
- Django's URL-format validation of the `url` field is the parameter `isUrl`.
- Password hashing and `create_user`'s normalisations are the three functions of a `UserManager`: the username's NFKC normal form (`unicodedata`), the email's lower-cased domain part, and the hasher. Unicode normalisation tables are out of scope.
- `Accounts.Register`: the email-format check of the `email` field, the validators the serializer builds for `username` from the user model (the allowed-characters pattern and the uniqueness check against existing users) and the `max_length` limits of the user model's fields are not modelled. They need the user table and a regular-expression engine. So the model accepts some usernames and emails the source rejects. Request values are strings only (`Fields` maps names to strings): DRF's "This field may not be null." for a JSON `null`, its `str()` of a number, and its "Not a valid string." for a list, dict or boolean are not modelled.
- `Serializers.ValidateCreateRequest`: the `url` value is a string or absent, so a JSON `null`, number, list or boolean in the request is not modelled. A url that fails both the null-character check and the URL-format check gets both messages from DRF; the model reports the first.
- `QuizUpdateSerializer` is imported by the views, but its definition is not part of this model. Its effect is an oracle that returns the new values of every column it could write, owner included, or a field error. Which fields it actually allows is not modelled. Where it leaves a column alone, the oracle returns the instance's value.
- `quizzes/admin.py` is admin configuration. `users/api/urls.py` and `quizzes/api/urls.py` are routing. The latter imports `QuizListCreateView`, which the views module does not define.
- Timestamps come from a clock parameter `now` and are rendered as numbers, not as DRF's ISO-8601 strings.
- Transactions are not modelled. The model follows Django's default autocommit, so each write stands on its own.
- HTTP status codes are represented by the kind of `ApiError` or by success.
- Row order of unordered querysets (neither model declares an ordering) is taken to be insertion order.
- Column widths are not modelled: `Quiz.title` and `Question.answer` are limited to 255 characters, and `Quiz.video_url` is a `URLField` with the default limit of 200. `objects.create` and `bulk_create` skip model validation, and width enforcement depends on the database backend. The `url` field of the create request has no length limit, so a longer URL passes validation.
- `Views.QuizHeader`: a non-string title or description counts as a failure here. Django would store `str()` of a number or list, and modelling Python's `str()` of JSON values is out of scope. A `null` title makes the insert fail on the `NOT NULL` column instead. The store is unchanged either way, but the error kind differs.
- `Views.DraftOf`: a non-string question title or answer counts as a failure here, for the same reason. A `null` title or answer fails the `bulk_create` insert instead. The quiz is kept without questions either way, but the error kind differs.
- `Views.CreateQuiz`: the API key is taken to be a declared setting (`None` or a string). A setting that is not declared at all would raise `AttributeError` instead.

=== FILE: accounts.dfy ===
/** The registration serializer: which input fields it accepts, the field-level
    checks of its declared `CharField`s, the password confirmation check, and
    what reaches user creation. Request values are the strings the client sent. */
module Accounts {
  import opened Results
  import opened Strings
  import opened CharFields

  type Fields = map<string, string>

  /** `Meta.fields` of the registration serializer. */
  const RegisterFields: set<string> := {"username", "email", "password", "confirmed_password"}

  /** Fields declared write-only, never rendered in output. */
  const WriteOnlyFields: set<string> := {"password", "confirmed_password"}

  /** Fields a request must carry and may not leave blank: `email` may be left
      out or blank, since the user model allows a blank email. */
  const RequiredFields: set<string> := {"username", "password", "confirmed_password"}

  const MismatchMessage: string := "Passwords do not match."

  /** Why registration input was rejected: the errors of the declared fields,
      one message per failing field, or the error of `validate` (reported as a
      non-field error). */
  datatype RegisterError = FieldErrors(errors: map<string, string>) | NonFieldError(message: string)

  /** A created user. Only a hash of the password is kept. */
  datatype User = User(username: string, email: string, passwordHash: string)

  /** What `create_user` relies on outside this model: the NFKC normalisation
      of the username (`normalize_username`), the normalisation of the email's
      domain part (`normalize_email`) and the password hasher. */
  datatype UserManager = UserManager(
    normalizeUsername: string -> string,
    normalizeEmail: string -> string,
    hash: string -> string)

  /** The serializer keeps the declared fields of the request and drops the rest. */
  function AcceptedFields(request: Fields): (r: Fields)
    ensures r.Keys == request.Keys * RegisterFields
    ensures forall k :: k in r ==> r[k] == request[k]
  {
    map k | k in request.Keys * RegisterFields :: request[k]
  }

  /** A required field carries a value that is not all whitespace, that is, one
      that is not blank once stripped. */
  predicate Filled(data: Fields, field: string) {
    field in data && !AllSpace(data[field])
  }

  /** A declared field passes its own checks: a required field is present and
      not blank, and a value that is present holds no null character. */
  predicate FieldValid(data: Fields, field: string) {
    && (field in RequiredFields ==> Filled(data, field))
    && (field in data ==> NullChar !in data[field])
  }

  /** No declared field of the request holds a null character. */
  predicate NoNullChar(data: Fields) {
    forall f :: f in data && f in RegisterFields ==> NullChar !in data[f]
  }

  /** The error one declared `CharField` reports. The required ones report a
      missing or blank value; `email` is neither required nor refused when
      blank. Any present value with a null character is refused. By
      `StripEmptyIffAllSpace`, blank is made only of whitespace. */
  function FieldError(data: Fields, field: string): (r: Option<string>)
    ensures r.None? <==> FieldValid(data, field)
    ensures r == Some(RequiredMessage) <==> field in RequiredFields && field !in data
    ensures r == Some(BlankMessage) <==> field in RequiredFields && field in data && AllSpace(data[field])
    ensures r == Some(NullCharMessage) <==> field in data && NullChar in data[field]
  {
    if field !in data then
      if field in RequiredFields then Some(RequiredMessage) else None
    else
      NoNullCharInSpace(data[field]);
      match CheckText(data[field], field !in RequiredFields)
      case Failure(message) => Some(message)
      case Success(_) => None
  }

  /** The errors of all declared fields, collected before `validate` runs:
      every field that fails is reported, each with its own message. */
  function FieldErrorsOf(data: Fields): (r: map<string, string>)
    ensures r.Keys <= RegisterFields
    ensures forall f :: f in RegisterFields ==> (f in r <==> !FieldValid(data, f))
    ensures forall f :: f in r ==> (r[f] == RequiredMessage <==> f !in data)
    ensures forall f :: f in r ==> (r[f] == BlankMessage <==> f in data && AllSpace(data[f]))
    ensures forall f :: f in r ==> (r[f] == NullCharMessage <==> f in data && NullChar in data[f])
    ensures r == map[] <==> forall f :: f in RegisterFields ==> FieldValid(data, f)
  {
    var r := map f | f in RegisterFields && FieldError(data, f).Some? :: FieldError(data, f).value;
    assert r == map[] <== forall f :: f in RegisterFields ==> FieldValid(data, f) by {
      if forall f :: f in RegisterFields ==> FieldValid(data, f) {
        assert r.Keys == {};
      }
    }
    r
  }

  /** The values the fields hand to `validate`: `trim_whitespace` strips each one
      (`email` is a `CharField` too). */
  function Cleaned(data: Fields): (r: Fields)
    ensures r.Keys == data.Keys
    ensures forall k :: k in r ==> r[k] == Strip(data[k])
  {
    map k | k in data :: Strip(data[k])
  }

  /** `RegisterSerializer.validate`: the two password fields must be equal; the
      data passes through unchanged. */
  function ValidatePasswords(data: Fields): (r: Result<Fields, RegisterError>)
    requires "password" in data && "confirmed_password" in data
    ensures r.Failure? <==> data["password"] != data["confirmed_password"]
    ensures r.Failure? ==> r.error == NonFieldError(MismatchMessage)
    ensures r.Success? ==> r.value == data
  {
    if data["password"] != data["confirmed_password"] then
      Failure(NonFieldError(MismatchMessage))
    else
      Success(data)
  }

  /** `RegisterSerializer.create` up to the call: `confirmed_password` is popped
      and the rest is passed to user creation as keyword arguments. */
  function CreateUserArguments(validated: Fields): (r: Fields)
    requires "confirmed_password" in validated
    ensures r.Keys == validated.Keys - {"confirmed_password"}
    ensures forall k :: k in r ==> r[k] == validated[k]
  {
    validated - {"confirmed_password"}
  }

  /** `create_user(username, email, password)`: the username is normalised,
      the email defaults to empty and is otherwise normalised, and the password
      is stored only as a hash of it. */
  function CreateUser(args: Fields, users: UserManager): (r: User)
    requires "username" in args && "password" in args
    ensures r.username == users.normalizeUsername(args["username"])
    ensures r.passwordHash == users.hash(args["password"])
    ensures r.email == (if "email" in args then users.normalizeEmail(args["email"]) else "")
  {
    User(users.normalizeUsername(args["username"]),
         if "email" in args then users.normalizeEmail(args["email"]) else "",
         users.hash(args["password"]))
  }

  /** The field checks look only at declared fields, so dropping the undeclared
      ones first changes nothing. */
  lemma FieldErrorsOfAccepted(request: Fields)
    ensures FieldErrorsOf(AcceptedFields(request)) == FieldErrorsOf(request)
  {
    var data := AcceptedFields(request);
    forall f | f in RegisterFields ensures FieldValid(data, f) <==> FieldValid(request, f) {
    }
    var a, b := FieldErrorsOf(data), FieldErrorsOf(request);
    assert a.Keys == b.Keys;
    forall f | f in a ensures a[f] == b[f] {
    }
  }

  /** The whole registration: accept, check every field, validate, create. The
      password comparison and the stored values use the stripped field values. */
  function Register(request: Fields, users: UserManager): (r: Result<User, RegisterError>)
    ensures r.Success? <==> && Filled(request, "username") && Filled(request, "password")
                            && Filled(request, "confirmed_password") && NoNullChar(request)
                            && Strip(request["password"]) == Strip(request["confirmed_password"])
    ensures r.Success? ==>
              && r.value.username == users.normalizeUsername(Strip(request["username"]))
              && r.value.passwordHash == users.hash(Strip(request["password"]))
              && r.value.email == (if "email" in request then users.normalizeEmail(Strip(request["email"])) else "")
    ensures FieldErrorsOf(request) != map[] ==> r == Failure(FieldErrors(FieldErrorsOf(request)))
    ensures FieldErrorsOf(request) == map[] && r.Failure? ==> r.error == NonFieldError(MismatchMessage)
  {
    var data := AcceptedFields(request);
    FieldErrorsOfAccepted(request);
    AllValid(request);
    var errors := FieldErrorsOf(data);
    if errors != map[] then
      Failure(FieldErrors(errors))
    else
      CleanedAccepted(request);
      ValidateAndCreate(Cleaned(data), users)
  }

  /** `validate` and then `create` on the stripped values of the declared fields. */
  function ValidateAndCreate(data: Fields, users: UserManager): (r: Result<User, RegisterError>)
    requires RequiredFields <= data.Keys
    ensures r.Success? <==> data["password"] == data["confirmed_password"]
    ensures r.Failure? ==> r.error == NonFieldError(MismatchMessage)
    ensures r.Success? ==> && r.value.username == users.normalizeUsername(data["username"])
                           && r.value.passwordHash == users.hash(data["password"])
                           && r.value.email == (if "email" in data then users.normalizeEmail(data["email"]) else "")
  {
    var validated :- ValidatePasswords(data);
    Success(CreateUser(CreateUserArguments(validated), users))
  }

  /** The stripped declared fields of a request. */
  lemma CleanedAccepted(request: Fields)
    ensures var c := Cleaned(AcceptedFields(request));
            && c.Keys == request.Keys * RegisterFields
            && forall k :: k in c ==> c[k] == Strip(request[k])
  {
  }

  /** No error is reported exactly when the three required fields are filled
      and no declared field holds a null character. */
  lemma AllValid(data: Fields)
    ensures FieldErrorsOf(data) == map[] <==>
              && Filled(data, "username") && Filled(data, "password") && Filled(data, "confirmed_password")
              && NoNullChar(data)
  {
    if FieldErrorsOf(data) == map[] {
      forall f | f in data && f in RegisterFields ensures NullChar !in data[f] {
        assert FieldValid(data, f);
      }
    }
  }

  /** A request without any field reports all three required fields at once. */
  lemma EmptyRequestReportsAll(users: UserManager)
    ensures Register(map[], users) == Failure(FieldErrors(map["username" := RequiredMessage,
                                                              "password" := RequiredMessage,
                                                              "confirmed_password" := RequiredMessage]))
  {
    var e := FieldErrorsOf(map[]);
    var expected := map["username" := RequiredMessage, "password" := RequiredMessage,
                        "confirmed_password" := RequiredMessage];
    assert "username" in e && "password" in e && "confirmed_password" in e && "email" !in e;
    assert e.Keys == expected.Keys;
    assert e == expected;
  }

  /** Blank passwords are field errors raised before `validate`, even when they
      are equal. */
  lemma BlankPasswordsRejected(users: UserManager)
    ensures Register(map["username" := "a", "password" := "", "confirmed_password" := ""], users)
              == Failure(FieldErrors(map["password" := BlankMessage, "confirmed_password" := BlankMessage]))
  {
    var request := map["username" := "a", "password" := "", "confirmed_password" := ""];
    assert !IsSpace(request["username"][0]) && NullChar !in request["username"];
    BlankPasswordErrors(request);
  }

  lemma BlankPasswordErrors(request: Fields)
    requires Filled(request, "username") && NullChar !in request["username"] && "email" !in request
    requires "password" in request && AllSpace(request["password"])
    requires "confirmed_password" in request && AllSpace(request["confirmed_password"])
    ensures FieldErrorsOf(request) == map["password" := BlankMessage, "confirmed_password" := BlankMessage]
  {
    var e := FieldErrorsOf(request);
    var expected := map["password" := BlankMessage, "confirmed_password" := BlankMessage];
    assert e.Keys == expected.Keys by {
      assert "username" !in e && "email" !in e && "password" in e && "confirmed_password" in e;
    }
    assert e["password"] == BlankMessage && e["confirmed_password"] == BlankMessage;
  }

  /** Equal passwords holding a null character are field errors, raised before
      `validate`. */
  lemma NullCharPasswordsRejected(users: UserManager)
    ensures Register(map["username" := "a", "password" := "p\0", "confirmed_password" := "p\0"], users)
              == Failure(FieldErrors(map["password" := NullCharMessage, "confirmed_password" := NullCharMessage]))
  {
    var request := map["username" := "a", "password" := "p\0", "confirmed_password" := "p\0"];
    assert !IsSpace(request["username"][0]) && NullChar !in request["username"];
    assert request["password"][1] == NullChar;
    NullCharPasswordErrors(request);
  }

  lemma NullCharPasswordErrors(request: Fields)
    requires Filled(request, "username") && NullChar !in request["username"] && "email" !in request
    requires "password" in request && NullChar in request["password"]
    requires "confirmed_password" in request && NullChar in request["confirmed_password"]
    ensures FieldErrorsOf(request) == map["password" := NullCharMessage, "confirmed_password" := NullCharMessage]
  {
    var e := FieldErrorsOf(request);
    assert e.Keys == {"password", "confirmed_password"} by {
      NullCharPasswordKeys(request);
    }
    assert e["password"] == NullCharMessage by {
      NullCharErrorFor(request, "password");
    }
    assert e["confirmed_password"] == NullCharMessage by {
      NullCharErrorFor(request, "confirmed_password");
    }
    MapOfTwo(e, "password", "confirmed_password");
  }

  /** A map with two keys is the display of its two entries. */
  lemma MapOfTwo<K, V>(m: map<K, V>, a: K, b: K)
    requires m.Keys == {a, b}
    ensures m == map[a := m[a], b := m[b]]
  {
  }

  lemma NullCharPasswordKeys(request: Fields)
    requires Filled(request, "username") && NullChar !in request["username"] && "email" !in request
    requires "password" in request && NullChar in request["password"]
    requires "confirmed_password" in request && NullChar in request["confirmed_password"]
    ensures FieldErrorsOf(request).Keys == {"password", "confirmed_password"}
  {
    NoErrorFor(request, "username");
    NoEmailError(request);
    NullCharErrorFor(request, "password");
    NullCharErrorFor(request, "confirmed_password");
  }

  lemma NoErrorFor(data: Fields, f: string)
    requires f in data && NullChar !in data[f] && !AllSpace(data[f])
    ensures f !in FieldErrorsOf(data)
  {
  }

  lemma NoEmailError(data: Fields)
    requires "email" !in data
    ensures "email" !in FieldErrorsOf(data)
  {
  }

  lemma NullCharErrorFor(data: Fields, f: string)
    requires f in data && NullChar in data[f]
    ensures f in FieldErrorsOf(data) ==> FieldErrorsOf(data)[f] == NullCharMessage
    ensures f in RegisterFields ==> f in FieldErrorsOf(data)
  {
  }

  /** Surrounding whitespace is stripped before the passwords are compared, so
      " pw" confirms "pw", and the stored hash is that of "pw". */
  lemma PaddedPasswordsMatch(users: UserManager)
    ensures Register(map["username" := "a", "password" := " pw", "confirmed_password" := "pw"], users)
              == Success(User(users.normalizeUsername("a"), "", users.hash("pw")))
  {
    assert " pw" == [' '] + "pw";
    PaddedPasswordConfirmed("a", "pw", users);
  }

  /** A password sent with one leading space is confirmed by the same password
      without it, and the stored hash is that of the unpadded password. */
  lemma PaddedPasswordConfirmed(username: string, password: string, users: UserManager)
    requires |username| > 0 && Trimmed(username) && NullChar !in username
    requires |password| > 0 && Trimmed(password) && NullChar !in password
    ensures Register(map["username" := username, "password" := [' '] + password,
                         "confirmed_password" := password], users)
              == Success(User(users.normalizeUsername(username), "", users.hash(password)))
  {
    var request := map["username" := username, "password" := [' '] + password, "confirmed_password" := password];
    PaddedFacts(username, password);
    RegisterFilled(request, users);
  }

  lemma PaddedFacts(username: string, password: string)
    requires |username| > 0 && Trimmed(username) && NullChar !in username
    requires |password| > 0 && Trimmed(password) && NullChar !in password
    ensures var request := map["username" := username, "password" := [' '] + password,
                               "confirmed_password" := password];
            && Filled(request, "username") && Filled(request, "password") && Filled(request, "confirmed_password")
            && NoNullChar(request) && "email" !in request
            && Strip(request["username"]) == username
            && Strip(request["password"]) == Strip(request["confirmed_password"]) == password
  {
    var padded := [' '] + password;
    assert Strip(padded) == password by {
      assert padded[1..] == password;
      StripLeadingSpace(padded);
      StripTrimmed(password);
    }
    StripTrimmed(username);
    assert !IsSpace(username[0]) && !IsSpace(padded[1]) && !IsSpace(password[0]);
    assert NullChar !in padded;
    NoNullCharOfThree(username, padded, password);
  }

  /** A request of the three required fields whose values hold no null
      character. */
  lemma NoNullCharOfThree(username: string, password: string, confirmed: string)
    requires NullChar !in username && NullChar !in password && NullChar !in confirmed
    ensures NoNullChar(map["username" := username, "password" := password, "confirmed_password" := confirmed])
  {
  }

  /** A request whose required fields are filled, whose declared fields hold
      no null character and whose stripped passwords agree registers the
      stripped values, normalised as `create_user` does. */
  lemma RegisterFilled(request: Fields, users: UserManager)
    requires Filled(request, "username") && Filled(request, "password") && Filled(request, "confirmed_password")
    requires NoNullChar(request)
    requires Strip(request["password"]) == Strip(request["confirmed_password"])
    ensures Register(request, users)
              == Success(User(users.normalizeUsername(Strip(request["username"])),
                              if "email" in request then users.normalizeEmail(Strip(request["email"])) else "",
                              users.hash(Strip(request["password"]))))
  {
  }

  /** A leading space is stripped away. */
  lemma StripLeadingSpace(s: string)
    requires |s| > 0 && s[0] == ' '
    ensures Strip(s) == Strip(s[1..])
  {
  }

  /** Only username, email and password reach user creation, stripped; the
      confirmation never does, and unknown request fields are dropped on the way. */
  lemma CreationSeesOnlyDeclaredFields(request: Fields)
    requires RequiredFields <= request.Keys
    ensures var args := CreateUserArguments(Cleaned(AcceptedFields(request)));
            && args.Keys <= {"username", "email", "password"}
            && "confirmed_password" !in args
            && forall k :: k in args ==> args[k] == Strip(request[k])
  {
  }

  /** The serializer's output: the declared fields that are not write-only. */
  function Represent(user: User): (r: Fields)
    ensures r.Keys == RegisterFields - WriteOnlyFields
    ensures r.Keys !! WriteOnlyFields
  {
    map["username" := user.username, "email" := user.email]
  }

  /** The password never appears in the output, not even hashed. */
  lemma OutputHidesPassword(a: User, b: User)
    requires a.username == b.username && a.email == b.email
    ensures Represent(a) == Represent(b)
  {
  }
}

=== FILE: char_fields.dfy ===
/** The checks a Django REST Framework `CharField` applies to a text the client
    sent, shared by the quiz request serializer and the registration serializer:
    surrounding whitespace is trimmed (`trim_whitespace`, on by default), a
    value that is empty once trimmed is blank, and every `CharField` carries a
    validator that refuses the null character. */
module CharFields {
  import opened Results
  import opened Strings

  const RequiredMessage: string := "This field is required."
  const BlankMessage: string := "This field may not be blank."
  const NullCharMessage: string := "Null characters are not allowed."

  const NullChar: char := '\0'

  /** The null character is not whitespace, so stripping never removes it. */
  lemma NullCharNotSpace()
    ensures !IsSpace(NullChar)
  {
  }

  /** `CharField.run_validation` on a value that is present: a blank value is
      refused unless `allow_blank`, and then returned as ""; any other value is
      stripped and must not contain a null character. */
  function CheckText(raw: string, allowBlank: bool): (r: Result<string, string>)
    ensures r.Success? <==> (AllSpace(raw) ==> allowBlank) && NullChar !in raw
    ensures r.Success? ==> r.value == Strip(raw)
    ensures r.Failure? ==> r.error == (if AllSpace(raw) then BlankMessage else NullCharMessage)
  {
    NullCharNotSpace();
    StripEmptyIffAllSpace(raw);
    if AllSpace(raw) then
      if allowBlank then Success("") else Failure(BlankMessage)
    else
      var value := Strip(raw);
      StripKeepsNullChar(raw);
      if NullChar in value then Failure(NullCharMessage) else Success(value)
  }

  /** A text and its strip hold the null character alike. */
  lemma StripKeepsNullChar(s: string)
    ensures NullChar in Strip(s) <==> NullChar in s
  {
    var i, j := StripSpec(s);
    NullCharNotSpace();
    SliceKeepsChar(s, i, j, NullChar);
  }

  /** Cutting whitespace off both ends keeps every other character. */
  lemma SliceKeepsChar(s: string, i: nat, j: nat, c: char)
    requires i <= j <= |s| && AllSpace(s[..i]) && AllSpace(s[j..]) && !IsSpace(c)
    ensures c in s[i..j] <==> c in s
  {
    assert s == s[..i] + s[i..j] + s[j..];
    assert c !in s[..i] && c !in s[j..];
  }

  /** Whitespace holds no null character. */
  lemma NoNullCharInSpace(t: string)
    ensures AllSpace(t) ==> NullChar !in t
  {
    NullCharNotSpace();
  }
}

=== FILE: json.dfy ===
/** JSON documents as Python's `json.loads` returns them, and the dictionary
    subscription and iteration the views apply to them. */
module JsonValues {
  import opened Results

  /** A decoded JSON value. Objects are Python dicts: a later duplicate key wins,
      so a map from key to value is the right shape. */
  datatype Json =
    | JNull
    | JBool(b: bool)
    | JNumber(n: int)
    | JString(s: string)
    | JArray(items: seq<Json>)
    | JObject(fields: map<string, Json>)

  /** Why reading a field out of decoded data raised. */
  datatype DataError =
    | MissingKey(key: string)       // KeyError: the dict has no such key
    | NotSubscriptable(key: string) // TypeError: `value[key]` on a non-dict
    | NotText(key: string)          // the value stored under `key` is not a string
    | NotIterable                   // TypeError: iterating a non-iterable
    | NotAnEntry                    // TypeError: an iterated element is not a dict

  /** Python's `value[key]` on decoded JSON. */
  function Get(value: Json, key: string): (r: Result<Json, DataError>)
    ensures r.Success? <==> value.JObject? && key in value.fields
    ensures r.Success? ==> r.value == value.fields[key]
    ensures value.JObject? && key !in value.fields ==> r == Failure(MissingKey(key))
    ensures !value.JObject? ==> r == Failure(NotSubscriptable(key))
  {
    match value
    case JObject(fields) =>
      if key in fields then Success(fields[key]) else Failure(MissingKey(key))
    case _ => Failure(NotSubscriptable(key))
  }

  /** `value[key]`, required to hold a string. */
  function GetText(value: Json, key: string): (r: Result<string, DataError>)
    ensures r.Success? <==> Get(value, key).Success? && Get(value, key).value.JString?
    ensures r.Success? ==> Get(value, key).value == JString(r.value)
  {
    var v :- Get(value, key);
    if v.JString? then Success(v.s) else Failure(NotText(key))
  }

  /** The elements a Python `for` loop visits. A list yields its items; a dict
      yields its keys and a string its characters, which are strings, so only
      the empty dict and the empty string get through the loop body without a
      TypeError. Numbers, booleans and `None` are not iterable. */
  function Elements(value: Json): (r: Result<seq<Json>, DataError>)
    ensures r.Success? <==> value.JArray? || value == JObject(map[]) || value == JString([])
    ensures value.JArray? ==> r == Success(value.items)
    ensures r.Success? && !value.JArray? ==> r.value == []
    ensures value.JObject? || value.JString? ==> r.Failure? ==> r.error == NotAnEntry
    ensures value.JNull? || value.JBool? || value.JNumber? ==> r == Failure(NotIterable)
  {
    match value
    case JArray(items) => Success(items)
    case JObject(fields) => if fields == map[] then Success([]) else Failure(NotAnEntry)
    case JString(s) => if s == [] then Success([]) else Failure(NotAnEntry)
    case _ => Failure(NotIterable)
  }
}

=== FILE: models.dfy ===
/** The Quiz and Question records and the rows the database holds for them.
    A store is the two tables in insertion order plus the next free primary keys;
    users live outside it and are referred to by id. */
module Models {
  import opened Results
  import opened JsonValues
  import opened Sequences

  type UserId = nat

  /** An instant from the server clock; the clock itself is an input. */
  type Timestamp = int

  datatype Quiz = Quiz(
    id: nat,
    owner: UserId,
    title: string,
    description: string,
    videoUrl: string,
    score: Option<int>,
    isCompleted: bool,
    createdAt: Timestamp,
    updatedAt: Timestamp)

  /** `question_options` is a JSON column declared without `null=True`: any
      decoded JSON value but `null` can be stored (see `NullColumn`). */
  datatype Question = Question(
    id: nat,
    quiz: nat,
    title: string,
    options: Json,
    answer: string,
    createdAt: Timestamp,
    updatedAt: Timestamp)

  /** The column values of a question before it is saved. */
  datatype QuestionDraft = QuestionDraft(title: string, options: Json, answer: string)

  datatype Store = Store(
    quizzes: seq<Quiz>,
    questions: seq<Question>,
    nextQuizId: nat,
    nextQuestionId: nat)

  function QuizKey(q: Quiz): int { q.id }
  function QuestionKey(q: Question): int { q.id }

  function QuizIds(s: Store): set<nat> {
    set q | q in s.quizzes :: q.id
  }

  /** Primary keys are unique and below the next free key, and every question's
      foreign key names a quiz that exists. */
  ghost predicate Valid(s: Store) {
    && DistinctBy(s.quizzes, QuizKey)
    && DistinctBy(s.questions, QuestionKey)
    && (forall q :: q in s.quizzes ==> q.id < s.nextQuizId)
    && (forall q :: q in s.questions ==> q.id < s.nextQuestionId)
    && (forall q :: q in s.questions ==> q.quiz in QuizIds(s))
  }

  /** Row selectors, named so that every query uses the same predicate value. */
  function OfQuiz(quizId: nat): Question -> bool { (q: Question) => q.quiz == quizId }
  function NotOfQuiz(quizId: nat): Question -> bool { (q: Question) => q.quiz != quizId }
  function NotOfQuizzes(ids: set<nat>): Question -> bool { (q: Question) => q.quiz !in ids }
  function OwnedByUser(u: UserId): Quiz -> bool { (q: Quiz) => q.owner == u }
  function NotOwnedByUser(u: UserId): Quiz -> bool { (q: Quiz) => q.owner != u }
  function NotQuiz(quizId: nat): Quiz -> bool { (q: Quiz) => q.id != quizId }

  /** `quiz.questions`: the questions whose foreign key is `quizId`, in row order. */
  function QuestionsOf(s: Store, quizId: nat): (r: seq<Question>)
    ensures forall q :: q in r <==> q in s.questions && q.quiz == quizId
  {
    Filter(s.questions, OfQuiz(quizId))
  }

  /** `Quiz.objects.filter(user=u)`: the quizzes `u` owns, in row order. */
  function OwnedBy(s: Store, u: UserId): (r: seq<Quiz>)
    ensures forall q :: q in r <==> q in s.quizzes && q.owner == u
  {
    Filter(s.quizzes, OwnedByUser(u))
  }

  /** The quiz with primary key `id` among `qs`, if any. */
  function FindQuiz(qs: seq<Quiz>, id: nat): (r: Option<Quiz>)
    ensures r.Some? ==> r.value in qs && r.value.id == id
    ensures r.None? ==> forall q :: q in qs ==> q.id != id
  {
    if |qs| == 0 then None
    else if qs[0].id == id then Some(qs[0])
    else FindQuiz(qs[1..], id)
  }

  /** `instance.save()` on an existing row: the row with the same primary key is
      overwritten in place; nothing else changes. */
  function SaveQuiz(s: Store, quiz: Quiz): (r: Store)
    ensures |r.quizzes| == |s.quizzes| && r.questions == s.questions
    ensures r.nextQuizId == s.nextQuizId && r.nextQuestionId == s.nextQuestionId
    ensures forall k :: 0 <= k < |s.quizzes| && s.quizzes[k].id != quiz.id ==> r.quizzes[k] == s.quizzes[k]
    ensures forall k :: 0 <= k < |s.quizzes| && s.quizzes[k].id == quiz.id ==> r.quizzes[k] == quiz
  {
    s.(quizzes := seq(|s.quizzes|, k requires 0 <= k < |s.quizzes| =>
                        if s.quizzes[k].id == quiz.id then quiz else s.quizzes[k]))
  }

  /** Saving an existing quiz keeps the store consistent and the quiz findable. */
  lemma SaveQuizValid(s: Store, quiz: Quiz)
    requires Valid(s) && quiz.id in QuizIds(s)
    ensures Valid(SaveQuiz(s, quiz))
    ensures quiz in SaveQuiz(s, quiz).quizzes
  {
    var r := SaveQuiz(s, quiz);
    forall k | 0 <= k < |s.quizzes| ensures r.quizzes[k].id == s.quizzes[k].id {
    }
    assert QuizIds(r) == QuizIds(s) by {
      forall x | x in QuizIds(s) ensures x in QuizIds(r) {
        var q :| q in s.quizzes && q.id == x;
        var k :| 0 <= k < |s.quizzes| && s.quizzes[k] == q;
        assert r.quizzes[k].id == x;
      }
      forall x | x in QuizIds(r) ensures x in QuizIds(s) {
        var q :| q in r.quizzes && q.id == x;
        var k :| 0 <= k < |r.quizzes| && r.quizzes[k] == q;
        assert s.quizzes[k].id == x;
      }
    }
    var w :| w in s.quizzes && w.id == quiz.id;
    var k :| 0 <= k < |s.quizzes| && s.quizzes[k] == w;
    assert r.quizzes[k] == quiz;
  }

  /** `Quiz.objects.create(...)`: a new row with the next key, no score, not
      completed, both timestamps set to `now`. */
  function InsertQuiz(s: Store, owner: UserId, title: string, description: string,
                      videoUrl: string, now: Timestamp): (r: (Store, Quiz))
    ensures r.1.id == s.nextQuizId
    ensures Valid(s) ==> r.1.id !in QuizIds(s)
    ensures r.1.owner == owner && r.1.title == title && r.1.description == description
    ensures r.1.videoUrl == videoUrl
    ensures r.1.score.None? && !r.1.isCompleted
    ensures r.0.quizzes == s.quizzes + [r.1] && r.0.questions == s.questions
    ensures r.0.nextQuestionId == s.nextQuestionId
    ensures Valid(s) ==> Valid(r.0)
  {
    var quiz := Quiz(s.nextQuizId, owner, title, description, videoUrl, None, false, now, now);
    var s' := s.(quizzes := s.quizzes + [quiz], nextQuizId := s.nextQuizId + 1);
    assert forall q :: q in s.questions ==> q.quiz in QuizIds(s) ==> q.quiz in QuizIds(s');
    (s', quiz)
  }

  /** One saved question built from a draft. */
  function SavedQuestion(id: nat, quizId: nat, d: QuestionDraft, now: Timestamp): Question {
    Question(id, quizId, d.title, d.options, d.answer, now, now)
  }

  const QuestionOptionsColumn: string := "question_options"

  /** The NOT NULL column a batch of drafts would violate, if any: a JSON
      `null` in `question_options` is written as SQL NULL, which the column
      refuses, and the database then raises an IntegrityError. */
  function NullColumn(drafts: seq<QuestionDraft>): (r: Option<string>)
    ensures r.None? <==> forall k :: 0 <= k < |drafts| ==> drafts[k].options != JNull
    ensures r.Some? ==> r.value == QuestionOptionsColumn
    decreases |drafts|
  {
    if |drafts| == 0 then None
    else if drafts[0].options == JNull then Some(QuestionOptionsColumn)
    else
      var r := NullColumn(drafts[1..]);
      assert forall k :: 1 <= k < |drafts| ==> drafts[1..][k - 1] == drafts[k];
      r
  }

  /** `Question.objects.bulk_create(...)` when the database accepts the rows
      (`NullColumn` is none; the insert is one transaction, so otherwise no row
      is added): the drafts become rows in the given
      order, with consecutive keys, all pointing at `quizId`. */
  function BulkCreate(s: Store, quizId: nat, drafts: seq<QuestionDraft>, now: Timestamp): (r: Store)
    ensures r.quizzes == s.quizzes && r.nextQuizId == s.nextQuizId
    ensures r.nextQuestionId == s.nextQuestionId + |drafts|
    ensures |r.questions| == |s.questions| + |drafts|
    ensures r.questions[..|s.questions|] == s.questions
    ensures forall k :: 0 <= k < |drafts| ==>
              r.questions[|s.questions| + k] == SavedQuestion(s.nextQuestionId + k, quizId, drafts[k], now)
    decreases |drafts|
  {
    if |drafts| == 0 then s
    else
      var q := SavedQuestion(s.nextQuestionId, quizId, drafts[0], now);
      var s1 := s.(questions := s.questions + [q], nextQuestionId := s.nextQuestionId + 1);
      var r := BulkCreate(s1, quizId, drafts[1..], now);
      assert r.questions[..|s.questions|] == r.questions[..|s1.questions|][..|s.questions|];
      r
  }

  /** Bulk creation for an existing quiz keeps the store consistent. */
  lemma {:induction false} BulkCreateValid(s: Store, quizId: nat, drafts: seq<QuestionDraft>, now: Timestamp)
    requires Valid(s) && quizId in QuizIds(s)
    ensures Valid(BulkCreate(s, quizId, drafts, now))
    decreases |drafts|
  {
    if |drafts| > 0 {
      var q := SavedQuestion(s.nextQuestionId, quizId, drafts[0], now);
      var s1 := s.(questions := s.questions + [q], nextQuestionId := s.nextQuestionId + 1);
      assert QuizIds(s1) == QuizIds(s);
      assert DistinctBy(s1.questions, QuestionKey) by {
        forall i, j | 0 <= i < j < |s1.questions|
          ensures QuestionKey(s1.questions[i]) != QuestionKey(s1.questions[j])
        {
          if j < |s.questions| {
            assert s1.questions[i] == s.questions[i] && s1.questions[j] == s.questions[j];
          } else {
            assert s1.questions[i] in s.questions;
          }
        }
      }
      BulkCreateValid(s1, quizId, drafts[1..], now);
    }
  }

  /** The rows bulk creation appends, one per draft and in draft order. */
  lemma BulkCreateAppends(s: Store, quizId: nat, drafts: seq<QuestionDraft>, now: Timestamp)
    returns (added: seq<Question>)
    ensures BulkCreate(s, quizId, drafts, now).questions == s.questions + added
    ensures |added| == |drafts|
    ensures forall k :: 0 <= k < |drafts| ==>
              added[k] == SavedQuestion(s.nextQuestionId + k, quizId, drafts[k], now)
  {
    var r := BulkCreate(s, quizId, drafts, now);
    added := r.questions[|s.questions|..];
    assert r.questions == r.questions[..|s.questions|] + added;
  }

  /** The questions bulk-created for a quiz that had none are exactly that quiz's
      questions, in the order of the drafts. */
  lemma NewQuizQuestions(s: Store, quizId: nat, drafts: seq<QuestionDraft>, now: Timestamp)
    requires forall q :: q in s.questions ==> q.quiz != quizId
    ensures var qs := QuestionsOf(BulkCreate(s, quizId, drafts, now), quizId);
            && |qs| == |drafts|
            && forall k :: 0 <= k < |drafts| ==>
                 qs[k] == SavedQuestion(s.nextQuestionId + k, quizId, drafts[k], now)
  {
    var added := BulkCreateAppends(s, quizId, drafts, now);
    var r := BulkCreate(s, quizId, drafts, now);
    assert Filter(added, OfQuiz(quizId)) == added by {
      forall x | x in added ensures OfQuiz(quizId)(x) {
        var k :| 0 <= k < |added| && added[k] == x;
      }
      FilterAll(added, OfQuiz(quizId));
    }
    assert Filter(s.questions, OfQuiz(quizId)) == [] by {
      FilterNone(s.questions, OfQuiz(quizId));
    }
    FilterAppend(s.questions, added, OfQuiz(quizId));
    assert QuestionsOf(r, quizId) == added by {
      assert r.questions == s.questions + added;
    }
  }

  /** `quiz.delete()`: the quiz row goes and, by the cascading foreign key, its
      questions with it. */
  function DeleteQuiz(s: Store, quizId: nat): (r: Store)
    ensures forall q :: q in r.quizzes <==> q in s.quizzes && q.id != quizId
    ensures forall q :: q in r.questions <==> q in s.questions && q.quiz != quizId
    ensures r.nextQuizId == s.nextQuizId && r.nextQuestionId == s.nextQuestionId
  {
    Store(Filter(s.quizzes, NotQuiz(quizId)),
          Filter(s.questions, NotOfQuiz(quizId)),
          s.nextQuizId, s.nextQuestionId)
  }

  /** Deleting a quiz keeps the store consistent, removes exactly as many question
      rows as the quiz had, and leaves every other quiz's questions as they were. */
  lemma DeleteQuizEffect(s: Store, quizId: nat)
    requires Valid(s)
    ensures Valid(DeleteQuiz(s, quizId))
    ensures |DeleteQuiz(s, quizId).questions| == |s.questions| - |QuestionsOf(s, quizId)|
    ensures forall other :: other != quizId ==>
              QuestionsOf(DeleteQuiz(s, quizId), other) == QuestionsOf(s, other)
  {
    var r := DeleteQuiz(s, quizId);
    FilterDistinct(s.quizzes, NotQuiz(quizId), QuizKey);
    FilterDistinct(s.questions, NotOfQuiz(quizId), QuestionKey);
    assert forall q :: q in r.questions ==> q.quiz in QuizIds(r) by {
      forall q | q in r.questions ensures q.quiz in QuizIds(r) {
        var owner :| owner in s.quizzes && owner.id == q.quiz;
        assert owner in r.quizzes;
      }
    }
    FilterPartition(s.questions, OfQuiz(quizId), NotOfQuiz(quizId));
    forall other | other != quizId
      ensures QuestionsOf(r, other) == QuestionsOf(s, other)
    {
      FilterNarrow(s.questions, NotOfQuiz(quizId), OfQuiz(other));
    }
  }

  function QuizIdsOwnedBy(s: Store, u: UserId): set<nat> {
    set q | q in s.quizzes && q.owner == u :: q.id
  }

  /** Deleting a user cascades to the user's quizzes and from them to their
      questions. */
  function DeleteUserData(s: Store, u: UserId): (r: Store)
    ensures forall q :: q in r.quizzes <==> q in s.quizzes && q.owner != u
    ensures forall q :: q in r.questions <==> q in s.questions && q.quiz !in QuizIdsOwnedBy(s, u)
    ensures r.nextQuizId == s.nextQuizId && r.nextQuestionId == s.nextQuestionId
  {
    var gone := QuizIdsOwnedBy(s, u);
    Store(Filter(s.quizzes, NotOwnedByUser(u)),
          Filter(s.questions, NotOfQuizzes(gone)),
          s.nextQuizId, s.nextQuestionId)
  }

  /** After deleting a user's data the store is consistent, the user owns nothing,
      and every other user's quizzes and their questions are as they were. */
  lemma DeleteUserEffect(s: Store, u: UserId)
    requires Valid(s)
    ensures Valid(DeleteUserData(s, u))
    ensures OwnedBy(DeleteUserData(s, u), u) == []
    ensures forall v :: v != u ==> OwnedBy(DeleteUserData(s, u), v) == OwnedBy(s, v)
    ensures forall q :: q in s.quizzes && q.owner != u ==>
              QuestionsOf(DeleteUserData(s, u), q.id) == QuestionsOf(s, q.id)
    ensures forall q :: q in s.quizzes && q.owner == u ==> QuestionsOf(DeleteUserData(s, u), q.id) == []
  {
    var r := DeleteUserData(s, u);
    var gone := QuizIdsOwnedBy(s, u);
    FilterDistinct(s.quizzes, NotOwnedByUser(u), QuizKey);
    FilterDistinct(s.questions, NotOfQuizzes(gone), QuestionKey);
    assert forall q :: q in r.questions ==> q.quiz in QuizIds(r) by {
      forall q | q in r.questions ensures q.quiz in QuizIds(r) {
        var owner :| owner in s.quizzes && owner.id == q.quiz;
        assert owner.owner != u;
        assert owner in r.quizzes;
      }
    }
    FilterNone(r.quizzes, OwnedByUser(u));
    forall v | v != u ensures OwnedBy(r, v) == OwnedBy(s, v) {
      FilterNarrow(s.quizzes, NotOwnedByUser(u), OwnedByUser(v));
    }
    forall quiz | quiz in s.quizzes && quiz.owner != u
      ensures QuestionsOf(r, quiz.id) == QuestionsOf(s, quiz.id)
    {
      assert quiz.id !in gone by {
        if quiz.id in gone {
          var w :| w in s.quizzes && w.owner == u && w.id == quiz.id;
          SameKeySameQuiz(s, w, quiz);
        }
      }
      FilterNarrow(s.questions, NotOfQuizzes(gone), OfQuiz(quiz.id));
    }
    forall quiz | quiz in s.quizzes && quiz.owner == u
      ensures QuestionsOf(r, quiz.id) == []
    {
      FilterNone(r.questions, OfQuiz(quiz.id));
    }
  }

  /** Primary keys identify rows. */
  lemma SameKeySameQuiz(s: Store, a: Quiz, b: Quiz)
    requires Valid(s) && a in s.quizzes && b in s.quizzes && a.id == b.id
    ensures a == b
  {
    var i :| 0 <= i < |s.quizzes| && s.quizzes[i] == a;
    var j :| 0 <= j < |s.quizzes| && s.quizzes[j] == b;
  }
}

=== FILE: quiz_generator.dfy ===
/** The quiz generator: the prompt sent to the language model, the clean-up of
    the model's reply, and the mapping of a JSON parse failure to one fixed error.
    The model call and `json.loads` are parameters of the functions that use them. */
module QuizGenerator {
  import opened Results
  import opened Strings
  import opened JsonValues

  /** The prompt text before the video URL. */
  const PromptHead: string :=
    "\n    Create a multiple choice quiz based on this YouTube video:\n    "

  /** The prompt text after the video URL: the JSON shape and the formatting rules. */
  const PromptTail: string :=
    "\n\n    Return ONLY valid JSON in this exact format:\n\n"
    + "    {\n"
    + "      \"title\": \"Quiz title\",\n"
    + "      \"description\": \"Short description\",\n"
    + "      \"questions\": [\n"
    + "        {\n"
    + "          \"question_title\": \"Question text\",\n"
    + "          \"question_options\": [\n"
    + "            \"Option 1\",\n"
    + "            \"Option 2\",\n"
    + "            \"Option 3\",\n"
    + "            \"Option 4\"\n"
    + "          ],\n"
    + "          \"answer\": \"Correct option exactly as written above\"\n"
    + "        }\n"
    + "      ]\n"
    + "    }\n\n"
    + "    Do NOT prefix options with A., B., C., or D.\n"
    + "    No explanations. No markdown. Only JSON.\n"
    + "    "

  /** The instruction string for one video. */
  function Prompt(videoUrl: string): (p: string)
    ensures Contains(p, videoUrl)
    ensures StartsWith(p, PromptHead) && EndsWith(p, PromptTail)
    ensures |p| == |PromptHead| + |videoUrl| + |PromptTail|
  {
    var p := PromptHead + videoUrl + PromptTail;
    assert p[|PromptHead|..|PromptHead| + |videoUrl|] == videoUrl;
    SliceIsContained(p, |PromptHead|, |PromptHead| + |videoUrl|);
    assert p[..|PromptHead|] == PromptHead;
    assert p[|p| - |PromptTail|..] == PromptTail;
    p
  }

  /** Reads the video URL back out of a prompt. */
  function UrlOfPrompt(p: string): string
    requires |PromptHead| + |PromptTail| <= |p|
  {
    p[|PromptHead|..|p| - |PromptTail|]
  }

  /** The URL is embedded verbatim: it can be read back from the prompt, so
      distinct videos always get distinct prompts. */
  lemma PromptRoundTrip(videoUrl: string)
    ensures UrlOfPrompt(Prompt(videoUrl)) == videoUrl
  {
    var p := Prompt(videoUrl);
    assert p == PromptHead + videoUrl + PromptTail;
    assert p[|PromptHead|..|p| - |PromptTail|] == videoUrl;
  }

  lemma PromptInjective(u: string, v: string)
    requires Prompt(u) == Prompt(v)
    ensures u == v
  {
    PromptRoundTrip(u);
    PromptRoundTrip(v);
  }

  const JsonFence: string := "```json"
  const Fence: string := "```"

  /** `re.sub("^" + p, "", s)` for a literal `p` without MULTILINE: `^` matches only
      at index 0, so at most one copy of `p` is removed, and only from the front. */
  function SubAtStart(s: string, p: string): (r: string)
    ensures |r| <= |s| && r == s[|s| - |r|..]
    ensures |s| - |r| == 0 || (|s| - |r| == |p| && StartsWith(s, p))
    ensures StartsWith(s, p) ==> p + r == s
    ensures !StartsWith(s, p) ==> r == s
  {
    if StartsWith(s, p) then s[|p|..] else s
  }

  /** `re.sub(p + "$", "", s)` for a literal `p` without MULTILINE: `$` matches at the
      end of the string and also just before a final newline. For `p == "\n"` and a
      text ending in two newlines Python removes both; the generator only ever uses
      the fence, for which this is exact. */
  function SubAtEnd(s: string, p: string): string
  {
    if EndsWith(s, p) then s[..|s| - |p|]
    else if 0 < |s| && s[|s| - 1] == '\n' && EndsWith(s[..|s| - 1], p) then
      s[..|s| - 1 - |p|] + "\n"
    else s
  }

  /** What `SubAtEnd` removes: a final `p`; failing that, a `p` just before a
      final newline, which stays; otherwise nothing. */
  lemma SubAtEndMeaning(s: string, p: string)
    ensures EndsWith(s, p) ==> SubAtEnd(s, p) + p == s
    ensures !EndsWith(s, p) && EndsWith(s, p + "\n") ==>
              var r := SubAtEnd(s, p);
              EndsWith(r, "\n") && r[..|r| - 1] + p + "\n" == s
    ensures !EndsWith(s, p) && !EndsWith(s, p + "\n") ==> SubAtEnd(s, p) == s
  {
    NewlineSuffix(s, p);
  }

  /** Ending in `p` followed by a newline is ending in a newline with `p` just
      before it. */
  lemma NewlineSuffix(s: string, p: string)
    ensures EndsWith(s, p + "\n") <==> 0 < |s| && s[|s| - 1] == '\n' && EndsWith(s[..|s| - 1], p)
  {
    if 0 < |s| && |p| + 1 <= |s| {
      assert s[|s| - |p| - 1..] == s[..|s| - 1][|s| - 1 - |p|..] + [s[|s| - 1]];
    }
  }

  /** The three anchored fence removals, in the order the generator applies them. */
  function RemoveFences(t: string): string
  {
    var a := SubAtStart(t, JsonFence);
    var b := SubAtStart(a, Fence);
    SubAtEnd(b, Fence)
  }

  /** The reply text with surrounding whitespace removed first, then the fences. */
  function Sanitize(raw: string): string
  {
    RemoveFences(Strip(raw))
  }

  /** On text that does not end in a newline `$` matches only at the very end, so
      the last step is a plain suffix removal. */
  lemma SubAtEndWithoutNewline(s: string, p: string)
    requires |s| == 0 || s[|s| - 1] != '\n'
    ensures SubAtEnd(s, p) == (if EndsWith(s, p) then s[..|s| - |p|] else s)
  {
  }

  /** On trimmed text the front removals leave a suffix whose last character is
      the text's own, never a newline; so the last step removes exactly a
      trailing "```". */
  lemma LastStep(t: string) returns (b: string)
    requires Trimmed(t)
    ensures b == SubAtStart(SubAtStart(t, JsonFence), Fence)
    ensures |t| - |b| in {0, 3, 7, 10}
    ensures |b| <= |t| && b == t[|t| - |b|..]
    ensures RemoveFences(t) == (if EndsWith(b, Fence) then b[..|b| - 3] else b)
  {
    b := SubAtStart(SubAtStart(t, JsonFence), Fence);
    if |b| > 0 {
      assert b[|b| - 1] == t[|t| - 1];
    }
    SubAtEndWithoutNewline(b, Fence);
  }

  /** Fence removal keeps one contiguous piece of trimmed text: at most ten
      characters go from the front and at most three from the back. */
  lemma RemoveFencesIsSlice(t: string) returns (i: nat, j: nat)
    requires Trimmed(t)
    ensures i <= j <= |t| && i <= 10 && |t| - 3 <= j
    ensures RemoveFences(t) == t[i..j]
  {
    var b := LastStep(t);
    i := |t| - |b|;
    if EndsWith(b, Fence) {
      j := |t| - 3;
    } else {
      j := |t|;
    }
  }

  /** The result is one contiguous piece of the stripped reply: at most ten
      characters (the "```json" and "```" openers) go from the front and at most
      three (a "```" closer) from the back. Everything between those windows,
      fence markers included, is kept, because each pattern is anchored. */
  lemma SanitizeIsSlice(raw: string)
    ensures var t := Strip(raw);
            exists i, j :: 0 <= i <= j <= |t| && i <= 10 && |t| - 3 <= j
                           && Sanitize(raw) == t[i..j]
  {
    var _, _ := StripSpec(raw);
    var i, j := RemoveFencesIsSlice(Strip(raw));
  }

  /** Whitespace around the reply is removed before any fence is looked for. */
  lemma SanitizeIgnoresPadding(pre: string, reply: string, post: string)
    requires AllSpace(pre) && AllSpace(post)
    ensures Sanitize(pre + reply + post) == Sanitize(reply)
    ensures Sanitize(Strip(reply)) == Sanitize(reply)
  {
    StripIgnoresPadding(pre, reply, post);
    StripIdempotent(reply);
  }

  /** Trimmed text that neither starts nor ends with a fence passes unchanged. */
  lemma UnfencedUnchanged(t: string)
    requires Trimmed(t)
    requires !StartsWith(t, Fence) && !EndsWith(t, Fence)
    ensures RemoveFences(t) == t
  {
    var _ := LastStep(t);
  }

  /** A stripped reply that neither starts nor ends with a fence is the result. */
  lemma SanitizeUnfenced(raw: string)
    ensures !StartsWith(Strip(raw), Fence) && !EndsWith(Strip(raw), Fence) ==> Sanitize(raw) == Strip(raw)
  {
    var _, _ := StripSpec(raw);
    if !StartsWith(Strip(raw), Fence) && !EndsWith(Strip(raw), Fence) {
      UnfencedUnchanged(Strip(raw));
    }
  }

  /** Closing fence removal on a body followed by "```", after an opening fence
      has already been taken off. */
  lemma ClosedBody(body: string)
    requires !StartsWith(body, Fence)
    ensures SubAtEnd(SubAtStart(body + Fence, Fence), Fence) == body
  {
    var a := body + Fence;
    if StartsWith(a, Fence) {
      // Only a body of fewer than three backticks gets here; dropping three
      // backticks from the front then leaves the same backticks.
      var b := a[3..];
      assert |b| == |body|;
      forall k | 0 <= k < |body| ensures b[k] == body[k] {
        assert a[k] == '`' && a[k + 3] == '`';
      }
      assert b == body;
    } else {
      assert a[..|a| - 3] == body;
    }
  }

  /** Trimmed text "```json" + body + "```" comes out as exactly `body`. */
  lemma JsonFencedBody(body: string)
    requires Trimmed(JsonFence + body + Fence)
    requires !StartsWith(body, Fence)
    ensures RemoveFences(JsonFence + body + Fence) == body
  {
    var t := JsonFence + body + Fence;
    assert StartsWith(t, JsonFence);
    assert t[7..] == body + Fence;
    ClosedBody(body);
    var _ := LastStep(t);
  }

  /** A reply that strips to "```json" + body + "```" is sanitized to `body`. */
  lemma SanitizeJsonFenced(raw: string, body: string)
    requires Strip(raw) == JsonFence + body + Fence
    requires !StartsWith(body, Fence)
    ensures Sanitize(raw) == body
  {
    var _, _ := StripSpec(raw);
    JsonFencedBody(body);
  }

  /** Text "```" + body + "```" comes out as exactly `body` whenever `body` does
      not start with "json": the opening fence goes with the bare `^` removal,
      which never looks at `body`, and the closing one with the `$` removal. */
  lemma BareFencedBody(body: string)
    requires !StartsWith(body, "json")
    ensures RemoveFences(Fence + body + Fence) == body
  {
    var t := Fence + body + Fence;
    assert t[3..] == body + Fence;
    NoJsonTag(body);
    assert !StartsWith(t, JsonFence) by {
      if |t| >= 7 {
        assert t[..7] == Fence + t[3..][..4];
      }
    }
    assert SubAtStart(t, Fence) == body + Fence;
    assert EndsWith(body + Fence, Fence);
    assert (body + Fence)[..|body|] == body;
  }

  /** A body that does not start with "json" still does not once a fence follows it. */
  lemma NoJsonTag(body: string)
    requires !StartsWith(body, "json")
    ensures !StartsWith(body + Fence, "json")
  {
    if |body| >= 4 {
      assert (body + Fence)[..4] == body[..4];
    } else {
      assert (body + Fence)[|body|] == '`';
    }
  }

  /** A reply that strips to "```" + body + "```" is sanitized to `body`. */
  lemma SanitizeBareFenced(raw: string, body: string)
    requires Strip(raw) == Fence + body + Fence
    requires !StartsWith(body, "json")
    ensures Sanitize(raw) == body
  {
    BareFencedBody(body);
  }

  /** Sanitizing twice can remove more than sanitizing once: "``` ```" loses its
      fences and becomes " ", which a second pass strips to "". */
  lemma SanitizeNotIdempotent()
    ensures Sanitize("``` ```") == " "
    ensures Sanitize(Sanitize("``` ```")) == ""
  {
    var s := "``` ```";
    assert Trimmed(s);
    StripTrimmed(s);
    assert !StartsWith(s, JsonFence);
    assert SubAtStart(s, Fence) == " ```";
    assert SubAtEnd(" ```", Fence) == " ";
    assert TrimStart(" ") == TrimStart("");
  }

  const InvalidJsonMessage: string := "AI did not return valid JSON."

  /** `json.loads` applied to the sanitized reply; a parse failure becomes the one
      fixed error message, a successful parse is returned as is. */
  function DecodeReply(raw: string, parse: string -> Option<Json>): (r: Result<Json, string>)
    ensures r.Failure? <==> parse(Sanitize(raw)).None?
    ensures r.Failure? ==> r.error == InvalidJsonMessage
    ensures r.Success? ==> Some(r.value) == parse(Sanitize(raw))
  {
    match parse(Sanitize(raw))
    case None => Failure(InvalidJsonMessage)
    case Some(v) => Success(v)
  }

  /** `generate_quiz_from_youtube`: one model call with the prompt, then decoding.
      `complete` stands for the model call; its failure carries `str(e)` of the
      exception it raised. */
  function GenerateQuiz(videoUrl: string, complete: string -> Result<string, string>,
                        parse: string -> Option<Json>): (r: Result<Json, string>)
    ensures r.Success? <==> complete(Prompt(videoUrl)).Success?
                            && parse(Sanitize(complete(Prompt(videoUrl)).value)).Some?
    ensures r.Success? ==> Some(r.value) == parse(Sanitize(complete(Prompt(videoUrl)).value))
    ensures complete(Prompt(videoUrl)).Success? && r.Failure? ==> r.error == InvalidJsonMessage
    ensures complete(Prompt(videoUrl)).Failure? ==> r.error == complete(Prompt(videoUrl)).error
  {
    var text :- complete(Prompt(videoUrl));
    DecodeReply(text, parse)
  }

  /** A "```json" fenced body with whitespace around it is sanitized to the body. */
  lemma SanitizeJsonFencedPadded(pre: string, body: string, post: string)
    requires AllSpace(pre) && AllSpace(post)
    requires !StartsWith(body, Fence)
    ensures Sanitize(pre + (JsonFence + body + Fence) + post) == body
  {
    var core := JsonFence + body + Fence;
    SanitizeIgnoresPadding(pre, core, post);
    FencedTrimmed(body);
    StripTrimmed(core);
    SanitizeJsonFenced(core, body);
  }

  /** Fenced text starts and ends with a backtick, so it is trimmed. */
  lemma FencedTrimmed(body: string)
    ensures Trimmed(JsonFence + body + Fence)
  {
    var core := JsonFence + body + Fence;
    assert core[0] == '`' && core[|core| - 1] == '`';
  }

  /** End to end: a reply that is the fenced JSON body, with any whitespace around
      it, yields exactly what parsing the body yields. */
  lemma FencedReplyDecodes(videoUrl: string, complete: string -> Result<string, string>,
                           parse: string -> Option<Json>,
                           pre: string, body: string, post: string)
    requires AllSpace(pre) && AllSpace(post)
    requires complete(Prompt(videoUrl)) == Success(pre + (JsonFence + body + Fence) + post)
    requires !StartsWith(body, Fence)
    ensures GenerateQuiz(videoUrl, complete, parse).Success? <==> parse(body).Some?
    ensures GenerateQuiz(videoUrl, complete, parse).Success? ==>
              Some(GenerateQuiz(videoUrl, complete, parse).value) == parse(body)
  {
    SanitizeJsonFencedPadded(pre, body, post);
  }
}

=== FILE: results.dfy ===
/** Option and Result types used to model Python's `None` and raised exceptions
    as ordinary values. */
module Results {

  /** A value that may be absent (Python's `None`). */
  datatype Option<+T> = None | Some(value: T)

  /** Either a computed value or the error an operation raised. */
  datatype Result<+R, +E> = Success(value: R) | Failure(error: E) {

    predicate IsFailure() {
      Failure?
    }

    function PropagateFailure<U>(): Result<U, E>
      requires Failure?
    {
      Failure(error)
    }

    function Extract(): R
      requires Success?
    {
      value
    }
  }
}

=== FILE: sequences.dfy ===
/** Order-preserving selection over sequences, the shape of a filtered queryset. */
module Sequences {

  /** The elements of `xs` that satisfy `p`, in their original order. */
  function Filter<T(!new)>(xs: seq<T>, p: T -> bool): (r: seq<T>)
    ensures |r| <= |xs|
    ensures forall x :: x in r <==> x in xs && p(x)
    ensures forall k :: 0 <= k < |r| ==> p(r[k])
    decreases |xs|
  {
    if |xs| == 0 then []
    else if p(xs[0]) then [xs[0]] + Filter(xs[1..], p)
    else Filter(xs[1..], p)
  }

  /** Filtering distributes over concatenation, so it keeps relative order. */
  lemma {:induction false} FilterAppend<T(!new)>(xs: seq<T>, ys: seq<T>, p: T -> bool)
    ensures Filter(xs + ys, p) == Filter(xs, p) + Filter(ys, p)
    decreases |xs|
  {
    if |xs| == 0 {
      assert xs + ys == ys;
    } else {
      assert (xs + ys)[1..] == xs[1..] + ys;
      FilterAppend(xs[1..], ys, p);
    }
  }

  /** A filter that rejects everything yields nothing. */
  lemma {:induction false} FilterNone<T(!new)>(xs: seq<T>, p: T -> bool)
    requires forall x :: x in xs ==> !p(x)
    ensures Filter(xs, p) == []
    decreases |xs|
  {
    if |xs| > 0 {
      assert forall x :: x in xs[1..] ==> x in xs;
      FilterNone(xs[1..], p);
    }
  }

  /** A filter that accepts everything changes nothing. */
  lemma {:induction false} FilterAll<T(!new)>(xs: seq<T>, p: T -> bool)
    requires forall x :: x in xs ==> p(x)
    ensures Filter(xs, p) == xs
    decreases |xs|
  {
    if |xs| > 0 {
      assert forall x :: x in xs[1..] ==> x in xs;
      FilterAll(xs[1..], p);
      assert [xs[0]] + xs[1..] == xs;
    }
  }

  /** Filtering by `p` and then by a stricter `q` is filtering by `q`. */
  lemma {:induction false} FilterNarrow<T(!new)>(xs: seq<T>, p: T -> bool, q: T -> bool)
    requires forall x :: x in xs && q(x) ==> p(x)
    ensures Filter(Filter(xs, p), q) == Filter(xs, q)
    decreases |xs|
  {
    if |xs| > 0 {
      assert forall x :: x in xs[1..] ==> x in xs;
      FilterNarrow(xs[1..], p, q);
    }
  }

  /** Splitting by a predicate and its negation accounts for every element. */
  lemma {:induction false} FilterPartition<T(!new)>(xs: seq<T>, p: T -> bool, q: T -> bool)
    requires forall x :: q(x) <==> !p(x)
    ensures |Filter(xs, p)| + |Filter(xs, q)| == |xs|
    decreases |xs|
  {
    if |xs| > 0 {
      FilterPartition(xs[1..], p, q);
    }
  }

  /** No two elements share a key. */
  ghost predicate DistinctBy<T>(xs: seq<T>, key: T -> int) {
    forall i, j :: 0 <= i < j < |xs| ==> key(xs[i]) != key(xs[j])
  }

  /** Filtering keeps keys distinct. */
  lemma {:induction false} FilterDistinct<T(!new)>(xs: seq<T>, p: T -> bool, key: T -> int)
    requires DistinctBy(xs, key)
    ensures DistinctBy(Filter(xs, p), key)
    decreases |xs|
  {
    if |xs| > 0 {
      var rest := xs[1..];
      DistinctTail(xs, key);
      FilterDistinct(rest, p, key);
      if p(xs[0]) {
        forall y | y in Filter(rest, p) ensures key(y) != key(xs[0]) {
          HeadKeyFresh(xs, key, y);
        }
        DistinctCons(xs[0], Filter(rest, p), key);
      }
    }
  }

  lemma DistinctTail<T>(xs: seq<T>, key: T -> int)
    requires DistinctBy(xs, key) && |xs| > 0
    ensures DistinctBy(xs[1..], key)
  {
    var rest := xs[1..];
    forall i, j | 0 <= i < j < |rest| ensures key(rest[i]) != key(rest[j]) {
      assert rest[i] == xs[i + 1] && rest[j] == xs[j + 1];
    }
  }

  /** An element whose key no other element has can go in front. */
  lemma DistinctCons<T>(x: T, ys: seq<T>, key: T -> int)
    requires DistinctBy(ys, key)
    requires forall y :: y in ys ==> key(y) != key(x)
    ensures DistinctBy([x] + ys, key)
  {
    var r := [x] + ys;
    forall i, j | 0 <= i < j < |r| ensures key(r[i]) != key(r[j]) {
      assert r[j] == ys[j - 1];
      if i > 0 {
        assert r[i] == ys[i - 1];
      }
    }
  }

  /** In a sequence without repeated keys, no later element shares the first one's key. */
  lemma HeadKeyFresh<T>(xs: seq<T>, key: T -> int, y: T)
    requires DistinctBy(xs, key) && |xs| > 0
    requires y in xs[1..]
    ensures key(y) != key(xs[0])
  {
    var m :| 0 <= m < |xs| - 1 && xs[1..][m] == y;
    assert xs[m + 1] == y;
  }
}

=== FILE: serializers.dfy ===
/** The quiz API's serializers: the request check for quiz creation and the
    fixed-field views of Quiz and Question rows. A view is the dictionary a
    serializer's `.data` holds. */
module Serializers {
  import opened Results
  import opened Strings
  import opened CharFields
  import opened JsonValues
  import opened Models

  type View = map<string, Json>

  const InvalidUrlMessage: string := "Invalid YouTube URL."
  const BadUrlMessage: string := "Enter a valid URL."

  /** `QuizCreateSerializer.validate_url`: the host check is a plain substring test. */
  function ValidateUrl(value: string): (r: Result<string, string>)
    ensures r.Success? <==> (exists i :: OccursAt("youtube.com", value, i))
                            || (exists i :: OccursAt("youtu.be", value, i))
    ensures r.Success? ==> r.value == value
    ensures r.Failure? ==> r.error == InvalidUrlMessage
  {
    ContainsIffOccurs(value, "youtube.com");
    ContainsIffOccurs(value, "youtu.be");
    if !Contains(value, "youtube.com") && !Contains(value, "youtu.be") then
      Failure(InvalidUrlMessage)
    else
      Success(value)
  }

  /** The `url` field of `QuizCreateSerializer`: a required `CharField` (trimmed,
      blank refused, no null character) whose URL-format check `isUrl` runs
      next, and then `validate_url`. */
  function ValidateCreateRequest(url: Option<string>, isUrl: string -> bool): (r: Result<string, string>)
    ensures url.None? ==> r == Failure(RequiredMessage)
    ensures url.Some? && CheckText(url.value, false).Failure? ==> r == Failure(CheckText(url.value, false).error)
    ensures r.Success? ==> url.Some? && r.value == Strip(url.value) && isUrl(r.value)
                           && ValidateUrl(r.value) == Success(r.value)
    ensures r.Success? <==> && url.Some? && !AllSpace(url.value) && NullChar !in url.value
                            && isUrl(Strip(url.value)) && ValidateUrl(Strip(url.value)).Success?
  {
    match url
    case None => Failure(RequiredMessage)
    case Some(raw) =>
      var value :- CheckText(raw, false);
      if !isUrl(value) then Failure(BadUrlMessage)
      else ValidateUrl(value)
  }

  /** The nested question serializers. */
  datatype QuestionShape =
    | PlainQuestion   // QuestionSerializer
    | PublicQuestion  // QuestionPublicSerializer
    | ListQuestion    // QuestionListSerializer
    | DetailQuestion  // QuestionDetailSerializer
  {
    predicate WithTimestamps() {
      this == PlainQuestion || this == DetailQuestion
    }
  }

  /** The quiz serializers. */
  datatype QuizShape =
    | PlainQuiz         // QuizSerializer
    | DetailPublicQuiz  // QuizDetailPublicSerializer
    | ListQuiz          // QuizListSerializer
    | DetailQuiz        // QuizDetailSerializer
  {
    /** The question serializer each quiz serializer nests. */
    function Nested(): QuestionShape {
      match this
      case PlainQuiz => PlainQuestion
      case DetailPublicQuiz => PublicQuestion
      case ListQuiz => ListQuestion
      case DetailQuiz => DetailQuestion
    }
  }

  const QuestionContentFields: set<string> := {"id", "question_title", "question_options", "answer"}
  const TimestampFields: set<string> := {"created_at", "updated_at"}
  const QuizFields: set<string> :=
    {"id", "title", "description", "created_at", "updated_at", "video_url", "questions"}

  /** Quiz columns no quiz serializer lists. */
  const PrivateQuizColumns: set<string> := {"user", "score", "is_completed"}

  /** A question row as one of the question serializers renders it. */
  function ProjectQuestion(q: Question, shape: QuestionShape): (r: View)
    ensures r.Keys == QuestionContentFields + (if shape.WithTimestamps() then TimestampFields else {})
    ensures "quiz" !in r
  {
    var content := map[
      "id" := JNumber(q.id),
      "question_title" := JString(q.title),
      "question_options" := q.options,
      "answer" := JString(q.answer)];
    if shape.WithTimestamps() then
      content["created_at" := JNumber(q.createdAt)]["updated_at" := JNumber(q.updatedAt)]
    else content
  }

  /** What a client can learn about a question from any of its views. */
  datatype QuestionContent = QuestionContent(id: nat, title: string, options: Json, answer: string)

  function ContentOf(q: Question): QuestionContent {
    QuestionContent(q.id, q.title, q.options, q.answer)
  }

  /** Reads a question's content back from a rendered view. */
  function ReadQuestionView(v: View): Option<QuestionContent> {
    if "id" in v && "question_title" in v && "question_options" in v && "answer" in v
       && v["id"].JNumber? && v["id"].n >= 0
       && v["question_title"].JString? && v["answer"].JString?
    then Some(QuestionContent(v["id"].n, v["question_title"].s, v["question_options"], v["answer"].s))
    else None
  }

  /** Every question view carries the id, title, options and answer verbatim. */
  lemma QuestionViewRoundTrip(q: Question, shape: QuestionShape)
    ensures ReadQuestionView(ProjectQuestion(q, shape)) == Some(ContentOf(q))
  {
  }

  /** The timestamp-free question views are the timestamped ones with the two
      timestamps dropped, and nothing else differs. */
  lemma PublicIsDetailWithoutTimestamps(q: Question)
    ensures ProjectQuestion(q, PublicQuestion) == ProjectQuestion(q, DetailQuestion) - TimestampFields
    ensures ProjectQuestion(q, ListQuestion) == ProjectQuestion(q, PublicQuestion)
    ensures ProjectQuestion(q, PlainQuestion) == ProjectQuestion(q, DetailQuestion)
  {
    var d := ProjectQuestion(q, DetailQuestion);
    var p := ProjectQuestion(q, PublicQuestion);
    assert (d - TimestampFields).Keys == p.Keys;
  }

  /** A `many=True` nested serializer: one entry per row, in row order. */
  function ProjectQuestions(qs: seq<Question>, shape: QuestionShape): (r: seq<Json>)
    ensures |r| == |qs|
    ensures forall k :: 0 <= k < |qs| ==> r[k].JObject? && ReadQuestionView(r[k].fields) == Some(ContentOf(qs[k]))
    ensures forall k :: 0 <= k < |qs| ==>
              r[k].fields.Keys == QuestionContentFields + (if shape.WithTimestamps() then TimestampFields else {})
  {
    seq(|qs|, k requires 0 <= k < |qs| => JObject(ProjectQuestion(qs[k], shape)))
  }

  /** A quiz row as one of the quiz serializers renders it, with the quiz's
      questions nested. */
  function ProjectQuiz(s: Store, quiz: Quiz, shape: QuizShape): (r: View)
    ensures r.Keys == QuizFields
    ensures r.Keys !! PrivateQuizColumns
    ensures r["id"] == JNumber(quiz.id) && r["title"] == JString(quiz.title)
    ensures r["description"] == JString(quiz.description) && r["video_url"] == JString(quiz.videoUrl)
    ensures r["questions"].JArray? && |r["questions"].items| == |QuestionsOf(s, quiz.id)|
    ensures forall k :: 0 <= k < |QuestionsOf(s, quiz.id)| ==>
              && r["questions"].items[k].JObject?
              && ReadQuestionView(r["questions"].items[k].fields) == Some(ContentOf(QuestionsOf(s, quiz.id)[k]))
    ensures forall k :: 0 <= k < |QuestionsOf(s, quiz.id)| ==>
              r["questions"].items[k].fields.Keys
              == QuestionContentFields + (if shape == PlainQuiz || shape == DetailQuiz then TimestampFields else {})
  {
    var items := ProjectQuestions(QuestionsOf(s, quiz.id), shape.Nested());
    assert shape.Nested().WithTimestamps() <==> shape == PlainQuiz || shape == DetailQuiz;
    var v := map[
      "id" := JNumber(quiz.id),
      "title" := JString(quiz.title),
      "description" := JString(quiz.description),
      "created_at" := JNumber(quiz.createdAt),
      "updated_at" := JNumber(quiz.updatedAt),
      "video_url" := JString(quiz.videoUrl),
      "questions" := JArray(items)];
    assert v["questions"] == JArray(items);
    v
  }

  /** Owner, score and completion never show: quizzes that differ only in those
      columns render identically under every quiz serializer. */
  lemma QuizViewHidesPrivateColumns(s: Store, a: Quiz, b: Quiz, shape: QuizShape)
    requires a.(owner := b.owner, score := b.score, isCompleted := b.isCompleted) == b
    ensures ProjectQuiz(s, a, shape) == ProjectQuiz(s, b, shape)
  {
  }

  /** The list view and the public detail view agree, and so do the detail
      view and the plain quiz view. */
  lemma QuizViewsAgree(s: Store, quiz: Quiz)
    ensures ProjectQuiz(s, quiz, ListQuiz) == ProjectQuiz(s, quiz, DetailPublicQuiz)
    ensures ProjectQuiz(s, quiz, PlainQuiz) == ProjectQuiz(s, quiz, DetailQuiz)
  {
    var qs := QuestionsOf(s, quiz.id);
    assert ProjectQuestions(qs, ListQuestion) == ProjectQuestions(qs, PublicQuestion)
        && ProjectQuestions(qs, PlainQuestion) == ProjectQuestions(qs, DetailQuestion) by {
      forall k | 0 <= k < |qs| {
        PublicIsDetailWithoutTimestamps(qs[k]);
      }
      ProjectQuestionsAgree(qs, ListQuestion, PublicQuestion);
      ProjectQuestionsAgree(qs, PlainQuestion, DetailQuestion);
    }
  }

  /** Two question serializers that render every row alike render the rows alike. */
  lemma ProjectQuestionsAgree(qs: seq<Question>, a: QuestionShape, b: QuestionShape)
    requires forall k :: 0 <= k < |qs| ==> ProjectQuestion(qs[k], a) == ProjectQuestion(qs[k], b)
    ensures ProjectQuestions(qs, a) == ProjectQuestions(qs, b)
  {
  }
}

=== FILE: strings.dfy ===
/** Character and string facts used by the quiz generator and the serializers.
    Strings are sequences of Unicode scalar values, as Python `str` values are. */
module Strings {

  /** Python's `str.isspace()`: the whitespace characters `str.strip()` removes. */
  predicate IsSpace(c: char) {
    var n := c as int;
    || (0x09 <= n <= 0x0D)        // \t \n \v \f \r
    || (0x1C <= n <= 0x20)        // file/group/record/unit separators, space
    || n == 0x85 || n == 0xA0 || n == 0x1680
    || (0x2000 <= n <= 0x200A)
    || n == 0x2028 || n == 0x2029 || n == 0x202F || n == 0x205F || n == 0x3000
  }

  predicate AllSpace(s: string) {
    forall k :: 0 <= k < |s| ==> IsSpace(s[k])
  }

  predicate StartsWith(s: string, p: string) {
    |p| <= |s| && s[..|p|] == p
  }

  predicate EndsWith(s: string, p: string) {
    |p| <= |s| && s[|s| - |p|..] == p
  }

  /** `p` occurs in `s` starting at index `i`. */
  ghost predicate OccursAt(p: string, s: string, i: int) {
    0 <= i && i + |p| <= |s| && s[i..i + |p|] == p
  }

  /** Python's `p in s` for strings, scanning `s` from the left. */
  predicate Contains(s: string, p: string)
    decreases |s|
  {
    StartsWith(s, p) || (0 < |s| && Contains(s[1..], p))
  }

  /** `Contains` agrees with the positional definition of a substring, both ways. */
  lemma ContainsIffOccurs(s: string, p: string)
    ensures Contains(s, p) <==> exists i :: OccursAt(p, s, i)
  {
    if Contains(s, p) {
      var i := ContainsWitness(s, p);
    }
    forall i | OccursAt(p, s, i) ensures Contains(s, p) {
      OccursContained(s, p, i);
    }
  }

  lemma {:induction false} ContainsWitness(s: string, p: string) returns (i: int)
    requires Contains(s, p)
    ensures OccursAt(p, s, i)
    decreases |s|
  {
    if StartsWith(s, p) {
      i := 0;
    } else {
      var k := ContainsWitness(s[1..], p);
      assert s[k + 1..k + 1 + |p|] == s[1..][k..k + |p|];
      i := k + 1;
    }
  }

  lemma {:induction false} OccursContained(s: string, p: string, i: int)
    requires OccursAt(p, s, i)
    ensures Contains(s, p)
    decreases i
  {
    if i > 0 {
      assert s[1..][i - 1..i - 1 + |p|] == s[i..i + |p|];
      OccursContained(s[1..], p, i - 1);
    }
  }

  /** Every string contains each of its slices. */
  lemma SliceIsContained(s: string, i: int, j: int)
    requires 0 <= i <= j <= |s|
    ensures Contains(s, s[i..j])
  {
    assert OccursAt(s[i..j], s, i);
    ContainsIffOccurs(s, s[i..j]);
  }

  /** Leading whitespace removed (Python `lstrip()`). */
  function TrimStart(s: string): (r: string)
    ensures |r| <= |s| && r == s[|s| - |r|..]
    ensures AllSpace(s[..|s| - |r|])
    ensures |r| > 0 ==> !IsSpace(r[0])
  {
    if |s| > 0 && IsSpace(s[0]) then
      var r := TrimStart(s[1..]);
      assert s[..|s| - |r|] == [s[0]] + s[1..][..|s[1..]| - |r|];
      r
    else s
  }

  /** Trailing whitespace removed (Python `rstrip()`). */
  function TrimEnd(s: string): (r: string)
    ensures |r| <= |s| && r == s[..|r|]
    ensures AllSpace(s[|r|..])
    ensures |r| > 0 ==> !IsSpace(r[|r| - 1])
  {
    if |s| > 0 && IsSpace(s[|s| - 1]) then
      var r := TrimEnd(s[..|s| - 1]);
      assert s[|r|..] == s[..|s| - 1][|r|..] + [s[|s| - 1]];
      r
    else s
  }

  /** Python `str.strip()` with no argument. */
  function Strip(s: string): (r: string)
  {
    TrimEnd(TrimStart(s))
  }

  /** Neither starts nor ends with whitespace. */
  predicate Trimmed(t: string) {
    |t| == 0 || (!IsSpace(t[0]) && !IsSpace(t[|t| - 1]))
  }

  /** `Strip` removes a whitespace-only prefix and suffix and nothing else, and the
      result neither starts nor ends with whitespace. */
  lemma StripSpec(s: string) returns (i: nat, j: nat)
    ensures i <= j <= |s| && Strip(s) == s[i..j]
    ensures AllSpace(s[..i]) && AllSpace(s[j..])
    ensures Trimmed(Strip(s))
  {
    i, j := StripSlice(s);
    StripEnds(s);
  }

  lemma StripSlice(s: string) returns (i: nat, j: nat)
    ensures i <= j <= |s| && Strip(s) == s[i..j]
    ensures AllSpace(s[..i]) && AllSpace(s[j..])
  {
    var a := TrimStart(s);
    var r := TrimEnd(a);
    i := |s| - |a|;
    j := i + |r|;
    SuffixThenPrefix(s, a, r);
  }

  /** A prefix `r` of a suffix `a` of `s` is a slice of `s`, and what `r` leaves
      of `a` is what it leaves of `s`. */
  lemma SuffixThenPrefix(s: string, a: string, r: string)
    requires |a| <= |s| && a == s[|s| - |a|..]
    requires |r| <= |a| && r == a[..|r|]
    ensures r == s[|s| - |a|..|s| - |a| + |r|]
    ensures s[|s| - |a| + |r|..] == a[|r|..]
  {
  }

  lemma StripEnds(s: string)
    ensures Trimmed(Strip(s))
  {
    var a := TrimStart(s);
    var r := TrimEnd(a);
    if |r| > 0 {
      assert r[0] == a[0];
    }
  }

  /** A text strips to nothing exactly when it is all whitespace. */
  lemma StripEmptyIffAllSpace(s: string)
    ensures Strip(s) == "" <==> AllSpace(s)
  {
    var i, j := StripSpec(s);
    if Strip(s) == "" {
      assert s == s[..i] + s[j..];
    }
  }

  /** Stripping twice is stripping once. */
  lemma StripIdempotent(s: string)
    ensures Strip(Strip(s)) == Strip(s)
  {
    var _, _ := StripSpec(s);
    StripTrimmed(Strip(s));
  }

  /** A trimmed text is its own strip. */
  lemma StripTrimmed(t: string)
    requires Trimmed(t)
    ensures Strip(t) == t
  {
  }

  /** Surrounding whitespace does not change the stripped text. */
  lemma StripIgnoresPadding(pre: string, s: string, post: string)
    requires AllSpace(pre) && AllSpace(post)
    ensures Strip(pre + s + post) == Strip(s)
  {
    TrimStartPaddingAround(pre, s, post);
    TrimStartOver(s, post);
    TrimEndPadding(TrimStart(s), post);
  }

  lemma TrimStartPaddingAround(pre: string, s: string, post: string)
    requires AllSpace(pre)
    ensures TrimStart(pre + s + post) == TrimStart(s + post)
  {
    assert pre + s + post == pre + (s + post);
    TrimStartPadding(pre, s + post);
  }

  lemma {:induction false} TrimStartPadding(pre: string, s: string)
    requires AllSpace(pre)
    ensures TrimStart(pre + s) == TrimStart(s)
    decreases |pre|
  {
    if |pre| > 0 {
      assert (pre + s)[1..] == pre[1..] + s;
      TrimStartPadding(pre[1..], s);
    } else {
      assert pre + s == s;
    }
  }

  lemma {:induction false} TrimEndPadding(s: string, post: string)
    requires AllSpace(post)
    ensures TrimEnd(s + post) == TrimEnd(s)
    decreases |post|
  {
    if |post| > 0 {
      assert (s + post)[..|s + post| - 1] == s + post[..|post| - 1];
      TrimEndPadding(s, post[..|post| - 1]);
    } else {
      assert s + post == s;
    }
  }

  /** Trimming the front of `s + post` only touches `s`, unless `s` is all whitespace. */
  lemma {:induction false} TrimStartOver(s: string, post: string)
    requires AllSpace(post)
    ensures TrimEnd(TrimStart(s + post)) == TrimEnd(TrimStart(s) + post)
    decreases |s|
  {
    if |s| > 0 && IsSpace(s[0]) {
      assert (s + post)[1..] == s[1..] + post;
      TrimStartOver(s[1..], post);
    } else if |s| > 0 {
      assert TrimStart(s + post) == s + post;
    } else {
      assert s + post == post;
      assert TrimStart(s) + post == post;
      TrimEndAllSpace(post);
      TrimEndAllSpace(TrimStart(post));
    }
  }

  lemma {:induction false} TrimEndAllSpace(s: string)
    requires AllSpace(s)
    ensures TrimEnd(s) == []
    decreases |s|
  {
    if |s| > 0 {
      TrimEndAllSpace(s[..|s| - 1]);
    }
  }
}

=== FILE: views.dfy ===
/** The quiz API views: the create pipeline around the generator, and the list
    and detail views whose querysets are filtered by the requesting user. Every
    view requires an authenticated user. */
module Views {
  import opened Results
  import opened Strings
  import opened JsonValues
  import opened Sequences
  import opened Models
  import opened QuizGenerator
  import opened Serializers

  /** How a request fails. */
  datatype ApiError =
    | NotAuthenticated                        // 401 from IsAuthenticated
    | Invalid(field: string, message: string) // 400 from a serializer's validation
    | NotFound                                // 404 from get_object
    | ServerError(detail: string)             // 500 from a raised APIException
    | Unhandled(cause: DataError)             // 500 from an uncaught KeyError/TypeError
    | Integrity(column: string)               // 500 from an uncaught IntegrityError on a NOT NULL column

  /** A view's response, the store after the request, and every prompt sent to
      the language model while serving it. */
  datatype Reply<T> = Reply(result: Result<T, ApiError>, store: Store, modelCalls: seq<string>)

  /** What the create view depends on outside the database: the configured API
      key, the URL-format check of the URL field, the model call (its failure
      carries the exception text) and `json.loads`. */
  datatype Services = Services(
    apiKey: Option<string>,
    isUrl: string -> bool,
    complete: string -> Result<string, string>,
    parse: string -> Option<Json>)

  const MissingKeyMessage: string := "GEMINI_API_KEY is not configured."
  const GenerationFailedPrefix: string := "Quiz generation failed: "

  /** `settings.GEMINI_API_KEY` is truthy: present and not empty. */
  predicate Configured(key: Option<string>) {
    key.Some? && key.value != ""
  }

  /** `quiz_data["title"]` and `quiz_data["description"]`, read in that order. */
  function QuizHeader(data: Json): (r: Result<(string, string), DataError>)
    ensures r.Success? <==> GetText(data, "title").Success? && GetText(data, "description").Success?
    ensures r.Success? ==> Get(data, "title") == Success(JString(r.value.0))
                           && Get(data, "description") == Success(JString(r.value.1))
  {
    var title :- GetText(data, "title");
    var description :- GetText(data, "description");
    Success((title, description))
  }

  /** The column values of one entry of `quiz_data["questions"]`. */
  function DraftOf(entry: Json): (r: Result<QuestionDraft, DataError>)
    ensures r.Success? ==> Get(entry, "question_title") == Success(JString(r.value.title))
                           && Get(entry, "question_options") == Success(r.value.options)
                           && Get(entry, "answer") == Success(JString(r.value.answer))
    ensures r.Failure? ==> GetText(entry, "question_title").Failure?
                           || Get(entry, "question_options").Failure?
                           || GetText(entry, "answer").Failure?
  {
    var title :- GetText(entry, "question_title");
    var options :- Get(entry, "question_options");
    var answer :- GetText(entry, "answer");
    Success(QuestionDraft(title, options, answer))
  }

  /** The list comprehension over the entries: one draft per entry, in order;
      the first entry that fails stops it. */
  function DraftsOf(entries: seq<Json>): (r: Result<seq<QuestionDraft>, DataError>)
    ensures r.Success? <==> forall k :: 0 <= k < |entries| ==> DraftOf(entries[k]).Success?
    ensures r.Success? ==> |r.value| == |entries|
                           && forall k :: 0 <= k < |entries| ==> DraftOf(entries[k]) == Success(r.value[k])
    ensures r.Failure? ==> exists k :: 0 <= k < |entries| && DraftOf(entries[k]) == Failure(r.error)
                                      && forall j :: 0 <= j < k ==> DraftOf(entries[j]).Success?
    decreases |entries|
  {
    if |entries| == 0 then Success([])
    else
      var first :- DraftOf(entries[0]);
      match DraftsOf(entries[1..])
      case Failure(e) =>
        assert forall j :: 1 <= j < |entries| ==> entries[1..][j - 1] == entries[j];
        Failure(e)
      case Success(rest) =>
        assert forall j :: 1 <= j < |entries| ==> entries[1..][j - 1] == entries[j];
        Success([first] + rest)
  }

  /** The entries `for q in quiz_data["questions"]` visits. */
  function QuestionEntries(data: Json): seq<Json>
    requires Get(data, "questions").Success? && Elements(Get(data, "questions").value).Success?
  {
    Elements(Get(data, "questions").value).value
  }

  /** `quiz_data["questions"]` iterated into drafts: it succeeds iff the key is
      there, its value can be iterated and every entry can be read; each draft
      then carries its entry's title, options and answer verbatim. A failure is
      the first failing step's error. */
  function QuestionDrafts(data: Json): (r: Result<seq<QuestionDraft>, DataError>)
    ensures r.Success? <==> && Get(data, "questions").Success?
                            && Elements(Get(data, "questions").value).Success?
                            && DraftsOf(QuestionEntries(data)).Success?
    ensures r.Success? ==>
              var entries := QuestionEntries(data);
              && |r.value| == |entries|
              && forall k :: 0 <= k < |entries| ==>
                   && Get(entries[k], "question_title") == Success(JString(r.value[k].title))
                   && Get(entries[k], "question_options") == Success(r.value[k].options)
                   && Get(entries[k], "answer") == Success(JString(r.value[k].answer))
    ensures Get(data, "questions").Failure? ==> r == Failure(Get(data, "questions").error)
    ensures Get(data, "questions").Success? && Elements(Get(data, "questions").value).Failure? ==>
              r == Failure(Elements(Get(data, "questions").value).error)
  {
    var list :- Get(data, "questions");
    var entries :- Elements(list);
    DraftsOf(entries)
  }

  /** Lines 28-50 of the create view: the Quiz row from the decoded data, then
      the Question rows, then the detail view of the new quiz. The header fields
      are read before the Quiz row is written; the questions are read and
      inserted after, so a bad `questions` value, or an entry whose
      `question_options` is `null`, leaves the new quiz behind without
      questions. */
  function Materialize(s: Store, owner: UserId, videoUrl: string, data: Json, now: Timestamp)
    : (r: (Result<View, ApiError>, Store))
    ensures QuizHeader(data).Failure? ==> r == (Failure(Unhandled(QuizHeader(data).error)), s)
    ensures QuizHeader(data).Success? ==>
              |r.1.quizzes| == |s.quizzes| + 1 && r.1.quizzes[..|s.quizzes|] == s.quizzes
              && Last(r.1.quizzes).owner == owner && Last(r.1.quizzes).videoUrl == videoUrl
              && Last(r.1.quizzes).id == s.nextQuizId
    ensures QuizHeader(data).Success? && QuestionDrafts(data).Failure? ==>
              r.0 == Failure(Unhandled(QuestionDrafts(data).error)) && r.1.questions == s.questions
    ensures QuizHeader(data).Success? && QuestionDrafts(data).Success?
            && (exists k :: 0 <= k < |QuestionDrafts(data).value| && QuestionDrafts(data).value[k].options == JNull) ==>
              r.0 == Failure(Integrity(QuestionOptionsColumn)) && r.1.questions == s.questions
    ensures r.0.Success? <==> && QuizHeader(data).Success? && QuestionDrafts(data).Success?
                              && forall k :: 0 <= k < |QuestionDrafts(data).value| ==>
                                   QuestionDrafts(data).value[k].options != JNull
    ensures r.0.Success? ==> r.0.value == ProjectQuiz(r.1, Last(r.1.quizzes), DetailQuiz)
  {
    match QuizHeader(data)
    case Failure(e) => (Failure(Unhandled(e)), s)
    case Success(header) =>
      var (s1, quiz) := InsertQuiz(s, owner, header.0, header.1, videoUrl, now);
      match QuestionDrafts(data)
      case Failure(e) => (Failure(Unhandled(e)), s1)
      case Success(drafts) =>
        match NullColumn(drafts)
        case Some(column) => (Failure(Integrity(column)), s1)
        case None =>
          var s2 := BulkCreate(s1, quiz.id, drafts, now);
          (Success(ProjectQuiz(s2, quiz, DetailQuiz)), s2)
  }

  function Last<T>(xs: seq<T>): T
    requires |xs| > 0
  {
    xs[|xs| - 1]
  }

  /** `QuizCreateView.create`. */
  function CreateQuiz(s: Store, requester: Option<UserId>, url: Option<string>,
                      env: Services, now: Timestamp): (r: Reply<View>)
    ensures requester.None? ==> r == Reply(Failure(NotAuthenticated), s, [])
    ensures r.modelCalls != [] ==>
              && requester.Some? && Configured(env.apiKey)
              && ValidateCreateRequest(url, env.isUrl).Success?
              && r.modelCalls == [Prompt(ValidateCreateRequest(url, env.isUrl).value)]
    ensures r.result.Failure? && r.result.error.ServerError? ==> r.store == s
    ensures r.store != s ==> r.modelCalls != []
  {
    match requester
    case None => Reply(Failure(NotAuthenticated), s, [])
    case Some(user) =>
      match ValidateCreateRequest(url, env.isUrl)
      case Failure(message) => Reply(Failure(Invalid("url", message)), s, [])
      case Success(videoUrl) =>
        if !Configured(env.apiKey) then
          Reply(Failure(ServerError(MissingKeyMessage)), s, [])
        else
          var calls := [Prompt(videoUrl)];
          match GenerateQuiz(videoUrl, env.complete, env.parse)
          case Failure(cause) =>
            Reply(Failure(ServerError(GenerationFailedPrefix + cause)), s, calls)
          case Success(data) =>
            var (result, s') := Materialize(s, user, videoUrl, data, now);
            assert result.Failure? ==> result.error.Unhandled? || result.error.Integrity?;
            Reply(result, s', calls)
  }

  /** Without a configured key the view fails before generation: no prompt is
      sent and nothing is written, whatever the model would have answered. */
  lemma MissingKeyStopsEarly(s: Store, user: UserId, url: Option<string>, env: Services, now: Timestamp)
    requires ValidateCreateRequest(url, env.isUrl).Success?
    requires !Configured(env.apiKey)
    ensures CreateQuiz(s, Some(user), url, env, now)
              == Reply(Failure(ServerError(MissingKeyMessage)), s, [])
  {
  }

  /** A URL the serializer rejects is reported as a `url` field error before the
      key check and before any model call. */
  lemma InvalidUrlStopsEarly(s: Store, user: UserId, url: Option<string>, env: Services, now: Timestamp)
    ensures ValidateCreateRequest(url, env.isUrl).Failure? ==>
              CreateQuiz(s, Some(user), url, env, now)
                == Reply(Failure(Invalid("url", ValidateCreateRequest(url, env.isUrl).error)), s, [])
  {
  }

  /** A failing model call or an unparseable reply is reported as
      "Quiz generation failed: " followed by the cause, and nothing is written. */
  lemma GenerationFailureWrapped(s: Store, user: UserId, url: Option<string>, env: Services, now: Timestamp)
    requires ValidateCreateRequest(url, env.isUrl).Success? && Configured(env.apiKey)
    ensures var videoUrl := ValidateCreateRequest(url, env.isUrl).value;
            var prompt := Prompt(videoUrl);
            var r := CreateQuiz(s, Some(user), url, env, now);
            && (env.complete(prompt).Failure? ==>
                  r == Reply(Failure(ServerError(GenerationFailedPrefix + env.complete(prompt).error)), s, [prompt]))
            && (env.complete(prompt).Success? && env.parse(Sanitize(env.complete(prompt).value)).None? ==>
                  r == Reply(Failure(ServerError(GenerationFailedPrefix + InvalidJsonMessage)), s, [prompt]))
  {
  }

  /** One saved question per entry, in order, each belonging to `quizId` and
      carrying its entry's title, options (never `null`) and answer verbatim. */
  predicate CopiesEntries(qs: seq<Question>, quizId: nat, entries: seq<Json>) {
    && |qs| == |entries|
    && forall k :: 0 <= k < |entries| ==>
         && qs[k].quiz == quizId
         && Get(entries[k], "question_title") == Success(JString(qs[k].title))
         && Get(entries[k], "question_options") == Success(qs[k].options)
         && qs[k].options != JNull
         && Get(entries[k], "answer") == Success(JString(qs[k].answer))
  }

  /** The materializer's success: one new quiz owned by `owner` with the given
      URL, title and description from the data, and exactly the data's question
      entries, in order, copied verbatim; the response is its detail view. */
  lemma MaterializeSuccess(s: Store, owner: UserId, videoUrl: string, data: Json, now: Timestamp)
    requires Valid(s)
    ensures Materialize(s, owner, videoUrl, data, now).0.Success? ==>
              var r := Materialize(s, owner, videoUrl, data, now);
              var quiz := Last(r.1.quizzes);
              var qs := QuestionsOf(r.1, quiz.id);
              && Get(data, "questions").Success? && Elements(Get(data, "questions").value).Success?
              && Valid(r.1)
              && r.1.quizzes == s.quizzes + [quiz]
              && quiz.id !in QuizIds(s)
              && quiz.owner == owner && quiz.videoUrl == videoUrl
              && quiz.score.None? && !quiz.isCompleted
              && Get(data, "title") == Success(JString(quiz.title))
              && Get(data, "description") == Success(JString(quiz.description))
              && CopiesEntries(qs, quiz.id, QuestionEntries(data))
  {
    if Materialize(s, owner, videoUrl, data, now).0.Success? {
      var header := QuizHeader(data).value;
      var drafts := QuestionDrafts(data).value;
      var (s1, quiz) := InsertQuiz(s, owner, header.0, header.1, videoUrl, now);
      var s2 := BulkCreate(s1, quiz.id, drafts, now);
      assert Materialize(s, owner, videoUrl, data, now).1 == s2 && NullColumn(drafts).None? by {
        assert Materialize(s, owner, videoUrl, data, now) == (Success(ProjectQuiz(s2, quiz, DetailQuiz)), s2);
      }
      NewQuizRows(s, s1, quiz, drafts, now);
      EntriesCopied(data, drafts, QuestionsOf(s2, quiz.id), quiz.id);
    }
  }

  /** Questions that carry the drafts read from the data carry its entries. */
  lemma EntriesCopied(data: Json, drafts: seq<QuestionDraft>, qs: seq<Question>, quizId: nat)
    requires QuestionDrafts(data) == Success(drafts) && NullColumn(drafts).None?
    requires |qs| == |drafts|
    requires forall k :: 0 <= k < |drafts| ==>
               && qs[k].quiz == quizId && qs[k].title == drafts[k].title
               && qs[k].options == drafts[k].options && qs[k].answer == drafts[k].answer
    ensures CopiesEntries(qs, quizId, QuestionEntries(data))
  {
  }

  /** Bulk creation right after inserting a quiz: the store stays consistent,
      the new quiz is the last row, and its questions are exactly the drafts. */
  lemma NewQuizRows(s: Store, s1: Store, quiz: Quiz, drafts: seq<QuestionDraft>, now: Timestamp)
    requires Valid(s) && quiz.id !in QuizIds(s)
    requires s1.quizzes == s.quizzes + [quiz] && s1.questions == s.questions && Valid(s1)
    ensures var s2 := BulkCreate(s1, quiz.id, drafts, now);
            var qs := QuestionsOf(s2, quiz.id);
            && Valid(s2) && s2.quizzes == s.quizzes + [quiz] && Last(s2.quizzes) == quiz
            && |qs| == |drafts|
            && forall k :: 0 <= k < |drafts| ==>
                 && qs[k].quiz == quiz.id && qs[k].title == drafts[k].title
                 && qs[k].options == drafts[k].options && qs[k].answer == drafts[k].answer
  {
    assert quiz.id in QuizIds(s1);
    BulkCreateValid(s1, quiz.id, drafts, now);
    assert forall q :: q in s1.questions ==> q.quiz in QuizIds(s);
    NewQuizQuestions(s1, quiz.id, drafts, now);
  }

  /** A successful create ran exactly one model call, with the prompt for the
      validated URL, and materialized the decoded reply for the requester. */
  lemma CreateQuizSuccess(s: Store, user: UserId, url: Option<string>, env: Services, now: Timestamp)
    ensures CreateQuiz(s, Some(user), url, env, now).result.Success? ==>
              var videoUrl := ValidateCreateRequest(url, env.isUrl).value;
              && ValidateCreateRequest(url, env.isUrl).Success?
              && Configured(env.apiKey)
              && GenerateQuiz(videoUrl, env.complete, env.parse).Success?
              && var data := GenerateQuiz(videoUrl, env.complete, env.parse).value;
                 var m := Materialize(s, user, videoUrl, data, now);
                 CreateQuiz(s, Some(user), url, env, now) == Reply(m.0, m.1, [Prompt(videoUrl)])
  {
    if CreateQuiz(s, Some(user), url, env, now).result.Success? {
      CreateQuizMaterializes(s, user, url, env, now);
    }
  }

  /** Past the checks and a successful generation, the view's outcome is the
      materialization of the decoded data, after one prompt. */
  lemma CreateQuizMaterializes(s: Store, user: UserId, url: Option<string>, env: Services, now: Timestamp)
    ensures ValidateCreateRequest(url, env.isUrl).Success? && Configured(env.apiKey)
            && GenerateQuiz(ValidateCreateRequest(url, env.isUrl).value, env.complete, env.parse).Success? ==>
              var videoUrl := ValidateCreateRequest(url, env.isUrl).value;
              var m := Materialize(s, user, videoUrl,
                                   GenerateQuiz(videoUrl, env.complete, env.parse).value, now);
              CreateQuiz(s, Some(user), url, env, now) == Reply(m.0, m.1, [Prompt(videoUrl)])
  {
  }

  /** A reply whose header fields cannot be read fails outside the generation
      error boundary (not as "Quiz generation failed") and writes nothing; one
      whose `questions` cannot be read fails the same way after the quiz row has
      been written, leaving that quiz without questions; so does one with an
      entry whose `question_options` is `null`, which the database refuses. */
  lemma MalformedDataUnwrapped(s: Store, user: UserId, videoUrl: string, url: Option<string>, env: Services,
                                data: Json, now: Timestamp)
    ensures ValidateCreateRequest(url, env.isUrl) == Success(videoUrl) && Configured(env.apiKey)
            && GenerateQuiz(videoUrl, env.complete, env.parse) == Success(data) ==>
              var r := CreateQuiz(s, Some(user), url, env, now);
              && (QuizHeader(data).Failure? ==> r.result == Failure(Unhandled(QuizHeader(data).error)) && r.store == s)
              && (QuizHeader(data).Success? && QuestionDrafts(data).Failure? ==>
                    && r.result == Failure(Unhandled(QuestionDrafts(data).error))
                    && |r.store.quizzes| == |s.quizzes| + 1
                    && r.store.questions == s.questions)
              && (QuizHeader(data).Success? && QuestionDrafts(data).Success?
                  && (exists k :: 0 <= k < |QuestionEntries(data)|
                                  && Get(QuestionEntries(data)[k], "question_options") == Success(JNull)) ==>
                    && r.result == Failure(Integrity(QuestionOptionsColumn))
                    && |r.store.quizzes| == |s.quizzes| + 1
                    && r.store.questions == s.questions)
  {
    if ValidateCreateRequest(url, env.isUrl) == Success(videoUrl) && Configured(env.apiKey)
       && GenerateQuiz(videoUrl, env.complete, env.parse) == Success(data) {
      CreateQuizMaterializes(s, user, url, env, now);
    }
  }

  /** `QuizListView`: the requester's quizzes in the list view. */
  function ListQuizzes(s: Store, requester: Option<UserId>): (r: Result<seq<View>, ApiError>)
    ensures requester.None? <==> r == Failure(NotAuthenticated)
    ensures r.Success? ==> |r.value| == |OwnedBy(s, requester.value)|
    ensures r.Success? ==> forall k :: 0 <= k < |r.value| ==>
              r.value[k] == ProjectQuiz(s, OwnedBy(s, requester.value)[k], ListQuiz)
  {
    match requester
    case None => Failure(NotAuthenticated)
    case Some(user) =>
      var owned := OwnedBy(s, user);
      Success(seq(|owned|, k requires 0 <= k < |owned| => ProjectQuiz(s, owned[k], ListQuiz)))
  }

  /** The list shows every quiz of the requester and no quiz of anyone else. */
  lemma ListShowsExactlyOwn(s: Store, user: UserId)
    requires Valid(s)
    ensures var views := ListQuizzes(s, Some(user)).value;
            forall q :: q in s.quizzes ==>
              (q.owner == user <==> exists k :: 0 <= k < |views| && views[k]["id"] == JNumber(q.id))
  {
    var views := ListQuizzes(s, Some(user)).value;
    var owned := OwnedBy(s, user);
    forall q | q in s.quizzes
      ensures q.owner == user <==> exists k :: 0 <= k < |views| && views[k]["id"] == JNumber(q.id)
    {
      if q.owner == user {
        var k :| 0 <= k < |owned| && owned[k] == q;
        assert views[k]["id"] == JNumber(q.id);
      }
    }
  }

  /** `get_object()` on `Quiz.objects.filter(user=requester)`. */
  function GetObject(s: Store, requester: Option<UserId>, id: nat): (r: Result<Quiz, ApiError>)
    ensures requester.None? ==> r == Failure(NotAuthenticated)
    ensures r.Success? ==> r.value in s.quizzes && r.value.id == id && Some(r.value.owner) == requester
    ensures requester.Some? ==>
              (r == Failure(NotFound) <==> forall q :: q in s.quizzes && q.id == id ==> q.owner != requester.value)
  {
    match requester
    case None => Failure(NotAuthenticated)
    case Some(user) =>
      match FindQuiz(OwnedBy(s, user), id)
      case None => Failure(NotFound)
      case Some(quiz) => Success(quiz)
  }

  /** The serializer class of the detail view for a request method. */
  datatype DetailSerializer = UpdateSerializer | PublicDetailSerializer

  function SerializerFor(verb: string): (r: DetailSerializer)
    ensures r == UpdateSerializer <==> verb == "PATCH" || verb == "PUT"
  {
    if verb in ["PATCH", "PUT"] then UpdateSerializer else PublicDetailSerializer
  }

  /** `QuizDetailView` GET: the public detail view of the requester's quiz. */
  function RetrieveQuiz(s: Store, requester: Option<UserId>, id: nat): (r: Result<View, ApiError>)
    ensures r.Success? ==> exists q :: q in s.quizzes && q.id == id && Some(q.owner) == requester
                                       && r.value == ProjectQuiz(s, q, DetailPublicQuiz)
    ensures r.Failure? ==> GetObject(s, requester, id) == Failure(r.error)
  {
    var quiz :- GetObject(s, requester, id);
    Success(ProjectQuiz(s, quiz, DetailPublicQuiz))
  }

  /** The columns the update serializer writes. Its field list is not part of
      this model, so it may write any column other than the key and the
      timestamps, which a model serializer treats as read-only; that includes
      the owner. A column it leaves alone carries the instance's value. */
  datatype QuizEdit = QuizEdit(
    owner: UserId, title: string, description: string, videoUrl: string,
    score: Option<int>, isCompleted: bool)

  /** PUT is a full update, PATCH a partial one. */
  datatype UpdateMethod = Put | Patch

  /** The update serializer: the instance, the request body and the partial flag
      to the columns it writes, or a field error. */
  type UpdateValidator = (Quiz, Json, bool) -> Result<QuizEdit, (string, string)>

  /** The row after `serializer.save()`; `auto_now` refreshes `updated_at`. */
  function Saved(quiz: Quiz, edit: QuizEdit, now: Timestamp): (r: Quiz)
    ensures r.id == quiz.id && r.createdAt == quiz.createdAt
    ensures r.updatedAt == now
    ensures r.owner == edit.owner
    ensures edit.owner == quiz.owner ==> r.owner == quiz.owner
  {
    quiz.(owner := edit.owner, title := edit.title, description := edit.description,
          videoUrl := edit.videoUrl, score := edit.score, isCompleted := edit.isCompleted,
          updatedAt := now)
  }

  /** The saved row depends on the old one only through its key and creation
      time: every other column comes from the edit or the clock. */
  lemma SavedIgnoresOldColumns(a: Quiz, b: Quiz, edit: QuizEdit, now: Timestamp)
    requires a.id == b.id && a.createdAt == b.createdAt
    ensures Saved(a, edit, now) == Saved(b, edit, now)
  {
  }

  /** `QuizDetailView.update`: look the quiz up through the owner filter, validate
      and save, then render the saved instance with the public detail serializer. */
  function UpdateQuiz(s: Store, requester: Option<UserId>, id: nat, body: Json, verb: UpdateMethod,
                      validate: UpdateValidator, now: Timestamp): (r: (Result<View, ApiError>, Store))
    ensures r.0.Failure? ==> r.1 == s
    ensures GetObject(s, requester, id).Failure? ==> r.0 == Failure(GetObject(s, requester, id).error)
    ensures r.0.Success? ==> (GetObject(s, requester, id).Success?
              && validate(GetObject(s, requester, id).value, body, verb == Patch).Success?)
    ensures r.0.Success? ==>
              var quiz := GetObject(s, requester, id).value;
              var edit := validate(quiz, body, verb == Patch).value;
              && r.1 == SaveQuiz(s, Saved(quiz, edit, now))
              && r.0.value == ProjectQuiz(r.1, Saved(quiz, edit, now), DetailPublicQuiz)
  {
    match GetObject(s, requester, id)
    case Failure(e) => (Failure(e), s)
    case Success(quiz) =>
      match validate(quiz, body, verb == Patch)
      case Failure(fieldError) => (Failure(Invalid(fieldError.0, fieldError.1)), s)
      case Success(edit) =>
        var saved := Saved(quiz, edit, now);
        var s' := SaveQuiz(s, saved);
        (Success(ProjectQuiz(s', saved, DetailPublicQuiz)), s')
  }

  /** The update response is the stored row after saving, rendered; it is not an
      echo of the request: two bodies the serializer turns into the same edit get
      the same response. The key, the other quizzes and every question are
      untouched, and the store stays consistent. The owner is the edit's, so it
      stays the requester unless the serializer writes another owner. */
  lemma UpdateRendersSavedRow(s: Store, user: UserId, id: nat, body1: Json, body2: Json,
                              verb: UpdateMethod, validate: UpdateValidator, now: Timestamp)
    requires Valid(s)
    ensures UpdateQuiz(s, Some(user), id, body1, verb, validate, now).0.Success?
            && validate(GetObject(s, Some(user), id).value, body1, verb == Patch)
               == validate(GetObject(s, Some(user), id).value, body2, verb == Patch) ==>
              var r := UpdateQuiz(s, Some(user), id, body1, verb, validate, now);
              && r == UpdateQuiz(s, Some(user), id, body2, verb, validate, now)
              && Valid(r.1)
              && r.1.questions == s.questions
              && (forall k :: 0 <= k < |s.quizzes| && s.quizzes[k].id != id ==> r.1.quizzes[k] == s.quizzes[k])
              && var edit := validate(GetObject(s, Some(user), id).value, body1, verb == Patch).value;
                 exists q :: q in r.1.quizzes && q.id == id && q.owner == edit.owner
                             && (edit.owner == user ==> q.owner == user)
                             && r.0.value == ProjectQuiz(r.1, q, DetailPublicQuiz)
  {
    if UpdateQuiz(s, Some(user), id, body1, verb, validate, now).0.Success? {
      var quiz := GetObject(s, Some(user), id).value;
      var edit := validate(quiz, body1, verb == Patch).value;
      assert quiz.id in QuizIds(s);
      SaveQuizValid(s, Saved(quiz, edit, now));
    }
  }

  /** `QuizDetailView` DELETE: the requester's quiz and, by cascade, its questions. */
  function DestroyQuiz(s: Store, requester: Option<UserId>, id: nat): (r: (Result<(), ApiError>, Store))
    ensures r.0.Failure? ==> r.1 == s && GetObject(s, requester, id) == Failure(r.0.error)
    ensures r.0.Success? ==> GetObject(s, requester, id).Success? && r.1 == DeleteQuiz(s, id)
  {
    match GetObject(s, requester, id)
    case Failure(e) => (Failure(e), s)
    case Success(_) => (Success(()), DeleteQuiz(s, id))
  }

  /** Another user's quiz behaves exactly as a missing one for retrieve, update
      and delete: the same "not found" outcome as on a store without that quiz,
      and nothing changes. */
  lemma OthersQuizIsAbsent(s: Store, user: UserId, id: nat, body: Json, verb: UpdateMethod,
                           validate: UpdateValidator, now: Timestamp)
    requires Valid(s)
    requires exists q :: q in s.quizzes && q.id == id && q.owner != user
    ensures RetrieveQuiz(s, Some(user), id) == Failure(NotFound)
    ensures RetrieveQuiz(s, Some(user), id) == RetrieveQuiz(DeleteQuiz(s, id), Some(user), id)
    ensures UpdateQuiz(s, Some(user), id, body, verb, validate, now) == (Failure(NotFound), s)
    ensures DestroyQuiz(s, Some(user), id) == (Failure(NotFound), s)
  {
    var other :| other in s.quizzes && other.id == id && other.owner != user;
    forall q | q in s.quizzes && q.id == id ensures q.owner != user {
      SameKeySameQuiz(s, q, other);
    }
  }
}
